=== FILE: README.md ===
# HR administration core: RUT checks, worker and contract forms, listings and SQL builders

This project is a Dafny model of the deterministic business logic in a
multi-company human-resources system. The system has a React front end and an
Express/PostgreSQL back end. The model covers:

- **RUT check digits** (`Rut`). These are Chilean taxpayer numbers with a
  modulo-11 check character. The front end has two independent validators:
  - `validarRut` with its inner `calcularDV` in the worker form;
  - `calcularDigitoVerificador` with `validarRutCompleto` in the worker list page.

  The model proves what each one accepts, where the two agree and where they
  part ways.
- **The worker form** (`WorkerForm`). This covers the validation schema:
  required fields, the Chilean phone pattern, and the duration and bonus
  fields that depend on the contract and bonus type. It also covers the
  `datosLimpios` normalisation applied before submission.
- **The contract form** (`ContractForm`). This covers:
  - years of service, computed from (year, month, day) triples;
  - the 15-days-per-year vacation accrual, less the days already consumed and
    floored at zero;
  - the consumed-days default;
  - the submit payload and its required-field guard.
- **The worker list page** (`WorkerList`). This covers the page state, the
  "Anterior"/"Siguiente" guards, the filter reset and the query the page
  sends.
- **The workers controller** (`WorkersController`). This covers:
  - the paginated listing: defaults, offset, search pattern, page count and
    message;
  - the RUT-exists rejection;
  - the dynamic INSERT and UPDATE builders, with their column lists and
    `$1..$n` placeholders.
- **The contract and family-dependent listings** (`FilteredListController`).
  These build a query with an optional owner filter, then renumber the LIMIT
  and OFFSET placeholders after it.

Shared modules:
- `Strings` holds digits, `split`/`join`, dot removal and ASCII upper-casing.
- `Js` holds the JavaScript values the code relies on:
  - `undefined`, `null`, strings and numbers, with NaN and ±Infinity;
  - truthiness;
  - `parseInt` and `Number()`;
  - arithmetic with NaN propagation;
  - `Math.ceil` of a quotient.
- `SqlText` holds a scanner for `$n` placeholders and a piecewise rendering of
  statement text, with lemmas that relate rendered text to its placeholder
  numbers.
- `Request` holds query-string and body lookups with destructuring defaults,
  plus the page-offset arithmetic.

The database, the clock and file uploads are parameters of the model. A query
result becomes a row list and a count. "Today" becomes a date triple. An
uploaded file becomes a present-or-absent file name.

`calcularDigitoVerificador` does not return a character. It returns the
string `"K"`, the number `0` or the number `11 - resto`, and `NaN` for numbers
longer than its weight table. The model keeps these values:
`Rut.CheckText` renders them the way `toString().toUpperCase()` does.

## Model

All paths are relative to the repository root. Front-end files are under
`frontend/src/pages/trabajadores/`; back-end files are under
`backend/src/controllers/`.

| member | source | states |
|---|---|---|
| Rut.CalcularDV | frontend/src/pages/trabajadores/TrabajadorForm.jsx:29-38 | The loop with cycling multipliers 2..7 from the rightmost digit returns a check character in `0`-`9`/`K` whose value completes the weighted digit sum to a multiple of 11 |
| Rut.CheckChar | frontend/src/pages/trabajadores/TrabajadorForm.jsx:36-37 | The character chosen from `11 - sum % 11` (11 to `0`, 10 to `K`) is a check character, and its value brings the sum to a multiple of 11 |
| Rut.CheckCharUnique | frontend/src/pages/trabajadores/TrabajadorForm.jsx:36-37 | Any check character that completes the sum to a multiple of 11 is the one the mapping yields, so exactly one character is right for each number |
| Rut.ValidarRutMeaning | frontend/src/pages/trabajadores/TrabajadorForm.jsx:22-41 | `validarRut` accepts a text exactly when it has at least two `-` segments, the first is all digits once dots are removed, and the second, upper-cased, is the modulo-11 check character |
| Rut.DotsIgnored | frontend/src/pages/trabajadores/TrabajadorForm.jsx:26 | Removing the dots of the number part never changes the verdict |
| Rut.ExtraSegmentsIgnored | frontend/src/pages/trabajadores/TrabajadorForm.jsx:24 | Segments after the second `-` do not affect `validarRut`, while both versions of `validarRutCompleto` reject such a text |
| Rut.CheckPartCaseInsensitive | frontend/src/pages/trabajadores/TrabajadorForm.jsx:40 | Check parts that agree after upper-casing (`k` and `K`) get the same verdict from `validarRut`, from the corrected `validarRutCompleto` and from `validarRutCompleto` as written |
| Rut.OneNineIsValid | frontend/src/pages/trabajadores/TrabajadorForm.jsx:22-41 | A concrete accepted RUT: `1-9` |
| Rut.ThreeSegmentsExample | frontend/src/pages/trabajadores/DatosPersonales.jsx:22-23 | `1-9-0` is accepted by `validarRut` but rejected by `validarRutCompleto`, both corrected and as written, which demands exactly two parts |
| Rut.TableSum | frontend/src/pages/trabajadores/DatosPersonales.jsx:9-13 | The sum over the 12-entry weight table equals the cycling weighted sum up to 12 digits and is NaN beyond |
| Rut.CheckTextAgrees | frontend/src/pages/trabajadores/DatosPersonales.jsx:14-17 | For a finite sum, the text of `K` for remainder 1, `0` for remainder 0 and `11 - resto` otherwise is the same single character the other validator computes |
| Rut.ValidarRutCompletoMeaning | frontend/src/pages/trabajadores/DatosPersonales.jsx:20-31 | The corrected `validarRutCompleto` accepts exactly the texts with two `-` segments that satisfy the modulo-11 checksum |
| Rut.ValidatorsAgreeOnOneHyphen | frontend/src/pages/trabajadores/DatosPersonales.jsx:20-31 | On texts with exactly one `-`, the corrected `validarRutCompleto` and `validarRut` give the same verdict |
| Rut.AsWrittenAgreesUpToTwelveDigits | frontend/src/pages/trabajadores/DatosPersonales.jsx:7-18 | On texts with one `-` and at most 12 digits after removing dots, `validarRutCompleto` as written agrees with `validarRut` |
| Rut.AsWrittenAcceptsNaN | frontend/src/pages/trabajadores/DatosPersonales.jsx:9-17 | For every digit string longer than 12, `validarRutCompleto` as written accepts `<digits>-nan`, which both correct validators reject |
| Rut.AsWrittenBeyondTwelve | frontend/src/pages/trabajadores/DatosPersonales.jsx:9-17 | For a digit string longer than 12 and a check part without `-`, `validarRutCompleto` as written accepts exactly when the check part upper-cases to `NAN`: no genuine check digit is accepted |
| Rut.NaNAcceptedExample | frontend/src/pages/trabajadores/DatosPersonales.jsx:12-17 | The concrete instance `1234567890123-nan` |
| WorkerForm.PhoneMatchesMeaning | frontend/src/pages/trabajadores/TrabajadorForm.jsx:63-66 | The hand-written phone matcher accepts exactly the texts of the shape: optional `56`/`+56`, optional space, `9`, optional space, four digits, optional space, four digits |
| WorkerForm.Normalise | frontend/src/pages/trabajadores/TrabajadorForm.jsx:306-322 | Text fields pass through unchanged. An `Indefinido` contract carries null duration and unit; otherwise the unit passes through. A non-`Fija` bonus carries a null amount. The cases of the conditional duration are stated by AcceptedFormDuration |
| WorkerForm.IdOrNull | frontend/src/pages/trabajadores/TrabajadorForm.jsx:309-311 | An identifier is a number exactly when its text is non-empty and null otherwise; a digit text becomes the number it spells |
| WorkerForm.AcceptedFormDuration | frontend/src/pages/trabajadores/TrabajadorForm.jsx:99-118 | For an accepted form that is not `Indefinido`, the unit is present and the entered length is a positive number posted truncated by `parseInt`, so the posted length is positive exactly when the entered one is at least 1 (`0.5` is posted as 0); for `Indefinido` both are null, and only then is the length null |
| WorkerForm.AcceptedFormBonus | frontend/src/pages/trabajadores/TrabajadorForm.jsx:127-136 | For an accepted form, a bonus amount is posted exactly when `Fija`, and then it is the positive amount entered, untruncated |
| WorkerForm.Truncate | frontend/src/pages/trabajadores/TrabajadorForm.jsx:312-315 | `parseInt` of a number gives the whole part toward zero: the largest count of whole units not exceeding a non-negative value, and the mirror for a negative one (below 1e-6 and from 1e21 up `parseInt` reads the exponent rendering instead, see Js.ParseInt) |
| WorkerForm.DurationRequiredUnlessOpenEnded | frontend/src/pages/trabajadores/TrabajadorForm.jsx:99-118 | A blank length and a missing unit are each reported exactly when the contract is not `Indefinido` (the `when` rule of both fields in the schema) |
| WorkerForm.AmountRequiredWhenFixed | frontend/src/pages/trabajadores/TrabajadorForm.jsx:127-136 | A blank bonus amount is reported exactly when the bonus type is `Fija` |
| WorkerForm.PhoneOptional | frontend/src/pages/trabajadores/TrabajadorForm.jsx:63-66 | A missing or empty phone is never reported, since the pattern excludes the empty string |
| WorkerForm.AcceptedFormIdentifiers | frontend/src/pages/trabajadores/TrabajadorForm.jsx:306-317 | For an accepted form, `hijos` is a non-negative number, the commune, department, position and schedule ids are numbers, and the RUT passes `validarRut` |
| ContractForm.MonthDayOrder | frontend/src/pages/trabajadores/Contratos.jsx:116-117 | The `month * 100 + day` code orders valid dates by (month, day) lexicographically and is injective on (month, day) |
| ContractForm.YearsOfService | frontend/src/pages/trabajadores/Contratos.jsx:114-123 | The result is the largest anniversary count reached by today: every anniversary up to it has been reached, the next has not, and it is never negative |
| ContractForm.YearsOfServiceMonotone | frontend/src/pages/trabajadores/Contratos.jsx:114-123 | A later today never yields fewer years of service |
| ContractForm.FullYearOnAnniversary | frontend/src/pages/trabajadores/Contratos.jsx:119-121 | On the n-th anniversary exactly n years are counted |
| ContractForm.VacationEffect | frontend/src/pages/trabajadores/Contratos.jsx:110-132 | Nothing is set exactly when the start date is empty. A set value is never NaN or negative, and an unparseable start date sets 0 |
| ContractForm.Remaining | frontend/src/pages/trabajadores/Contratos.jsx:125-131 | For numeric consumed days, the remaining vacation is `15 * years - consumed` when that is not negative and 0 otherwise; it is never NaN or negative |
| ContractForm.FloorAtZero | frontend/src/pages/trabajadores/Contratos.jsx:130 | `x >= 0 ? x : 0` keeps non-negative finite values and +Infinity, and maps negative values, -Infinity and NaN to 0 (both of the last compare false); it never yields NaN or a negative value |
| ContractForm.ConsumedDays | frontend/src/pages/trabajadores/Contratos.jsx:92-107 | Consumed days are 0 without a worker or a start date and when the request fails. Otherwise they are the response's `dias` when truthy and 0 when not |
| ContractForm.NoAnswerKeepsAccrual | frontend/src/pages/trabajadores/Contratos.jsx:99-106 | When the consumed-days request fails, the full accrual of 15 days per year of service is set |
| ContractForm.BuildPayload | frontend/src/pages/trabajadores/Contratos.jsx:156-172 | The worker, schedule, department and position ids and the dates pass through. The contract type is `parseInt(x, 10)` of its text, so a digit text gives the number it spells and a missing one NaN. The end date and description are the text when non-empty and null otherwise. Each amount is itself when truthy and 0 otherwise, infinities included. The vacation days are always a finite number. The AFP and Isapre ids are null when missing or unparseable and the number a non-zero digit text spells |
| ContractForm.IdOrNull | frontend/src/pages/trabajadores/Contratos.jsx:170-171 | `parseInt(x) \|\| null` is null for a missing text or one that does not parse, keeps a parsed non-zero number, and for a digit text is the number it spells unless that is 0 |
| ContractForm.SelectedIdsPosted | frontend/src/pages/trabajadores/Contratos.jsx:170-171 | An AFP and an Isapre chosen by their positive ids, held as decimal text, are posted as those same ids |
| ContractForm.Submit | frontend/src/pages/trabajadores/Contratos.jsx:176-188 | The payload is posted exactly when worker, contract type, department, schedule and position are all truthy, and the posted payload is the built one |
| ContractForm.SchemaAcceptedSubmit | frontend/src/pages/trabajadores/Contratos.jsx:9-16 | For data the schema accepts, the guard fails exactly when the contract type does not parse to a non-zero number |
| ContractForm.SubmittedVacation | frontend/src/pages/trabajadores/Contratos.jsx:169 | The vacation value the accrual effect set is the one submitted (consumed days are whole numbers here, see Left out) |
| WorkerList.AsWrittenInRangeWithPositiveCount | frontend/src/pages/trabajadores/DatosPersonales.jsx:164-180 | With a page count of at least 1, the guards as written keep the page within 1..count |
| WorkerList.AsWrittenLeavesRangeOnZeroPages | frontend/src/pages/trabajadores/DatosPersonales.jsx:174-176 | With a page count of 0, "Siguiente" as written moves from page 1 to page 2, outside the range |
| WorkerList.StepKeepsInRange | frontend/src/pages/trabajadores/DatosPersonales.jsx:164-180 | With the corrected guard, every navigation or filter event keeps the page within 1..last page, for any count the back end can send |
| WorkerList.NextNeverPassesLastPage | frontend/src/pages/trabajadores/DatosPersonales.jsx:174-176 | The corrected "Siguiente" either stays put or lands on a page no greater than the count |
| WorkerList.LoadQuery | frontend/src/pages/trabajadores/DatosPersonales.jsx:47-51 | The query carries the current page, the page size 5 and the filter, and the controller reads them back as sent |
| WorkerList.PageStaysPositive | frontend/src/pages/trabajadores/DatosPersonales.jsx:164-166 | No event takes the page below 1, under either guard |
| WorkerList.FilterEditResetsPage | frontend/src/pages/trabajadores/DatosPersonales.jsx:52-61 | Typing in the filter box sets page 1 and the new filter under both guards. A load changes only the page count: the response's count, or 1 when the request failed |
| WorkersController.ReadPageRequest | backend/src/controllers/trabajadoresController.js:22-24 | Defaults are page 1, limit 10 and filter `""`; a given page and limit are read with `parseInt` |
| WorkersController.ListPlanFor | backend/src/controllers/trabajadoresController.js:22-41 | Both statements bind exactly their parameters. The count query gets the first two row parameters. Rows get company, `%filtro%`, limit and offset, with offset `(page - 1) * limit` and NaN propagating |
| WorkersController.ListTextsPlaceholders | backend/src/controllers/trabajadoresController.js:28-41 | The row query refers to `$1 $2 $2 $2 $3 $4` and the count query to `$1 $2 $2 $2`, with the same WHERE clause |
| WorkersController.ListDefaults | backend/src/controllers/trabajadoresController.js:22-25 | An empty query plans page 1, limit 10, offset 0 and the pattern `%%` |
| WorkersController.ListPlanForReadableQuery | backend/src/controllers/trabajadoresController.js:22-34 | A query with numeric page and limit is planned with that page's offset and the filter as pattern |
| WorkersController.ListPlanForListRequest | backend/src/controllers/trabajadoresController.js:22-34 | The list page's own query is planned with its page, the limit 5 and the offset of its page |
| WorkersController.ListResponseFor | backend/src/controllers/trabajadoresController.js:44-54 | The response has the rows, the count as total and the page and limit. For a positive limit the page count is the least number of pages covering the total. The message is "Sin trabajadores" exactly when no rows came back |
| WorkersController.EmptyListHasZeroPages | backend/src/controllers/trabajadoresController.js:51 | An empty result reports 0 pages |
| WorkersController.UpdateColumnsAreInsertColumnsWithoutKeys | backend/src/controllers/trabajadoresController.js:194-208 | The 13 update columns are the 15 insert columns without `rut` (first) and `empresa_id` (last), with the same coercions |
| WorkersController.InsertWrites | backend/src/controllers/trabajadoresController.js:140-152 | The 15 insert columns are, in order, `rut` to `empresa_id` as the handler lists them, each written with its body field as given, `\|\| null` (phone and flat) or through `parseInt` (children and the four ids) |
| WorkersController.UpdateWrites | backend/src/controllers/trabajadoresController.js:194-208 | The 13 update columns are, in order, `nombre` to `id_cargo` as the handler lists them, each written with its camel-case body field coerced the same way |
| WorkersController.FileAssignments | backend/src/controllers/trabajadoresController.js:154-157 | Each of the four documents is written, under its own column with its file name, exactly when uploaded, and not otherwise; at most four columns are written |
| WorkersController.FileColumnsInOrder | backend/src/controllers/trabajadoresController.js:154-157 | Only the four document columns are ever written, and always in the order cv, certificado_antecedentes, certificado_afp, formulario_fun, so with the row above the document list is fully determined by the uploads |
| WorkersController.RutLookup | backend/src/controllers/trabajadoresController.js:131-134 | The lookup binds exactly its one parameter, the body's RUT |
| WorkersController.InsertTextPlaceholders | backend/src/controllers/trabajadoresController.js:159-160 | The INSERT text refers to exactly `$1..$n`, in order, for n columns |
| WorkersController.Create | backend/src/controllers/trabajadoresController.js:131-164 | An existing RUT gives 400 and no INSERT. Otherwise the columns are the base columns then the uploaded documents. Column and value lists have equal length, and the text's placeholders number the values in order |
| WorkersController.CreateWritesRutAndCompany | backend/src/controllers/trabajadoresController.js:140-152 | The created row has 15 to 19 columns, starts with the body's RUT and has the parsed company id at position 15 |
| WorkersController.SetListFacts | backend/src/controllers/trabajadoresController.js:215 | The SET list pairs the i-th name with `$(start+i)` and its placeholders are exactly those numbers |
| WorkersController.UpdateTextPlaceholders | backend/src/controllers/trabajadoresController.js:215-218 | The UPDATE text for n fields refers to exactly `$1..$(n+1)`, the last being the id |
| WorkersController.Update | backend/src/controllers/trabajadoresController.js:194-219 | The statement binds the assigned values in order and then the id, at `$(n+1)`; its placeholders number the values in order |
| WorkersController.UpdateNeverWritesKeys | backend/src/controllers/trabajadoresController.js:194-213 | No UPDATE assignment names `rut` or `empresa_id` |
| WorkersController.CreateAndUpdateAgree | backend/src/controllers/trabajadoresController.js:194-208 | The i-th UPDATE assignment is the (i+1)-th INSERT assignment: same column, same coerced value |
| FilteredListController.Offset | backend/src/controllers/contratosController.js:6 | `(page - 1) * limit` after `Number` coercion: the page's offset for numeric inputs and NaN when either input is NaN |
| FilteredListController.RowsTextPlaceholders | backend/src/controllers/contratosController.js:8-16 | The row query refers to `$1..$(n+2)`, with n = 1 when filtered and 0 when not, and the LIMIT/OFFSET numbers follow the filter's |
| FilteredListController.CountTextPlaceholders | backend/src/controllers/contratosController.js:9-13 | The count query refers to `$1` when filtered and to nothing otherwise |
| FilteredListController.RowsStatement | backend/src/controllers/contratosController.js:11-17 | The filtered row query binds `[id, limit, offset]` and the unfiltered one `[limit, offset]`, each numbered in order |
| FilteredListController.CountStatement | backend/src/controllers/contratosController.js:20 | The count query binds `[id]` when filtered and nothing otherwise |
| FilteredListController.FilteredPlanFor | backend/src/controllers/contratosController.js:5-20 | Defaults are page 1 and limit 10, and the offset is that of the page. The filter applies exactly when the owner id is truthy (`trabajador_id` for contracts; `id_trabajadores` for family dependents, whose controller has the same lines). Both statements are numbered in order |
| FilteredListController.CountFiltersAsRows | backend/src/controllers/contratosController.js:9-13 | The count text is its `SELECT` head followed by the same WHERE clause that follows the row query's head |
| FilteredListController.FilteredPlanBinds | backend/src/controllers/contratosController.js:11-17 | The highest placeholder of each statement equals its parameter count, and every parameter is referred to |
| FilteredListController.FilteredDefaults | backend/src/controllers/contratosController.js:5-6 | An empty query plans page 1, limit 10, offset 0 and no filter |
| FilteredListController.EmptyOwnerIsNoFilter | backend/src/controllers/cargasFamiliaresController.js:11 | An empty owner id plans exactly as an absent one |
| FilteredListController.FilteredResponseFor | backend/src/controllers/contratosController.js:22-24 | The response carries the rows, the count, and `Number(page)` and `Number(limit)` of whatever the query held, text or default |
| FilteredListController.TextQueryPlan | backend/src/controllers/contratosController.js:5-24 | A query `?page=p&limit=l` without a worker reads the rows unfiltered from offset `(p - 1) * l`, counts without a filter, and answers with page p and limit l as numbers |
| Js.CeilDiv | backend/src/controllers/trabajadoresController.js:51 | `Math.ceil(total / limit)` is the least page count covering the total for a positive limit, Infinity or NaN for a zero limit, and NaN for NaN |
| Js.ParseIntOfDecimal | backend/src/controllers/trabajadoresController.js:44 | `parseInt` of a natural number's decimal text gives that number back |
| Js.ToNumberOfDecimal | backend/src/controllers/contratosController.js:6 | `Number` of a natural number's decimal text gives that number back, which is how `(page - 1) * limit` reads query text |
| SqlText.NumberedInOrderBinds | backend/src/controllers/contratosController.js:11-17 | A statement whose placeholders are `$1..$n` in order binds exactly its n parameters |
| SqlText.ParamListFacts | backend/src/controllers/trabajadoresController.js:159 | The placeholder list `$s, $(s+1), …` renders as the tokens joined with `, ` and carries exactly those numbers |
| Strings.Split | frontend/src/pages/trabajadores/TrabajadorForm.jsx:24 | `split` gives at least one part, no part contains the separator, and joining the parts gives the text back |
| Strings.RemoveChar | frontend/src/pages/trabajadores/TrabajadorForm.jsx:26 | `replace(/\./g, "")` leaves no removed character, keeps every other character as often as it occurred, and never lengthens the text |
| Strings.RemoveCharKeepsOrder | frontend/src/pages/trabajadores/TrabajadorForm.jsx:26 | Removal works character by character in place: the other characters keep their order around a removed or kept one |
| Strings.ToUpper | frontend/src/pages/trabajadores/TrabajadorForm.jsx:40 | Upper-casing keeps the length, leaves no lower-case ASCII letter and keeps every other character |

## Left out

- Database execution is not modelled. Query results enter the model as a row list, a count and an "RUT exists" flag.
- Authentication (JWT, bcrypt) is left out because it is foreign library code.
- Multer storage and `fs` writes are left out; an uploaded document is a present-or-absent file name. The route file registers multer field names that differ from the ones the controller reads. That is wiring outside this model.
- React rendering, `useEffect` scheduling and the fetch/axios calls are left out. Their outcomes are parameters: a response, a failed request, or a loaded page count.
- The clock is a parameter: "today" is a date triple. `new Date("YYYY-MM-DD")` parses as UTC while the getters read local time, which moves the start date one day earlier west of UTC. Time zones are not modelled.
- The worker form's numeric inputs (children, duration and bonus amount) are exact fractions, so `parseInt` truncation and the untruncated `parseFloat` amount are both modelled. The contract form's `parseFloat` salaries and bonuses stay integers, because that form only passes them through `|| 0`.
- Js.ParseInt: integers are unbounded. A double's rounding above 2^53 is not modelled, and neither is the exponent rendering of numbers below 1e-6 or from 1e21 up, where `parseInt` of such a number reads only the digits before the exponent. This also bounds the round trip that WorkerList.LoadQuery states for page numbers.
- Request.Params: repeated query keys are not modelled. Express parses `?page=1&page=2` into an array, and `parseInt` of it reads `"1,2"` as 1; a query value here is a single text.
- ContractForm.SubmittedVacation: consumed days are whole numbers here, as every number of this form is. A fractional `dias` such as 2.5 would set 12.5 days, and `parseInt` would post 12, so the set and the posted value would differ; that case is not modelled.
- WorkerForm.RequiredMin3: `.min(3)` counts UTF-16 code units while the model counts characters (code points), so a name of two astral-plane characters passes in the browser and fails here.
- The internals of yup are left out. `.email()` is a predicate parameter. `.min(3)` and `.positive()` are stated directly, and the phone regular expression is a hand-written matcher.
- The 404, 500 and 201 responses and the JSON encoding are left out. Create models only the 400 rejection and the INSERT it issues.
- Whitespace inside the SQL template literals is normalised to single spaces, since the layout does not affect the placeholders or their order.
- Js.ToNumber: models `Number()` only for integer literals (decimal, hex, octal and binary) and blank text. Fractions, exponents and `"Infinity"` give NaN here, a weakening, because the model has no floating point.
- Strings.ToUpper: upper-cases ASCII letters only. Every comparison it feeds is against `0`-`9`, `K` or `NAN`, where the full Unicode mapping gives the same verdict.
- WorkerList.FilterEditResetsPage: the back end replies with `data` and `total_paginas`, while the page reads `trabajadores` and `totalPaginas`. The model therefore takes the loaded page count as an input, and it may be undefined.
- WorkersController.Create: the company id comes from the request body, as the code reads it, rather than from the authenticated user. The order of the document columns is stated through Create's column list rather than separately.

## Findings

| source | as written | input that shows it | evidently intended | confidence | as-written member | corrected member |
|---|---|---|---|---|---|---|
| frontend/src/pages/trabajadores/DatosPersonales.jsx:9-17 | The weight table has 12 entries. For a longer number `pesos[i]` is `undefined`, the sum becomes NaN and the check digit renders as `"NaN"`, so the upper-cased entry `NAN` matches. The front end never calls `validarRutCompleto` (only its definition exists), so the defect is latent until a caller uses it | `1234567890123-nan` is accepted | Weights cycle 2..7 for any length, as in `validarRut`, so such a text is rejected | not executed | Rut.AsWrittenAcceptsNaN | Rut.ValidarRutCompletoMeaning |
| frontend/src/pages/trabajadores/DatosPersonales.jsx:174-176 | "Siguiente" is disabled only when `pagina === totalPaginas`. An empty result has `Math.ceil(0 / limit) = 0` pages, so the button stays enabled. The page reads `totalPaginas` while the back end sends `total_paginas`, so the count is undefined today and the button is always enabled | page 1 of 0 pages; pressing "Siguiente" moves to page 2 and beyond | Disable "Siguiente" unless `pagina < totalPaginas`, that is `disabled={!(pagina < totalPaginas)}`, which also disables it for an undefined or NaN count (a `>=` test would not, since `1 >= undefined` is false) | not executed | WorkerList.AsWrittenLeavesRangeOnZeroPages | WorkerList.StepKeepsInRange |

=== FILE: contract_form.dfy ===
/** The contract form: the years of service and remaining vacation days
    computed from the start date, the consumed-days default, and the payload
    and required-field guard of the submit handler. "Today" and the parsed
    start date are parameters. */
module ContractForm {
  import opened Strings
  import opened Js

  /** A calendar date as the date getters report it: the month is 0-based
      (`getMonth`) and the day is the day of the month (`getDate`). */
  datatype Date = Date(year: int, month: int, day: int)

  predicate ValidDate(d: Date) {
    0 <= d.month < 12 && 1 <= d.day <= 31
  }

  /** Dates in calendar order. */
  predicate DateLe(a: Date, b: Date) {
    a.year < b.year
    || (a.year == b.year && (a.month < b.month || (a.month == b.month && a.day <= b.day)))
  }

  /** The `month * 100 + day` key the accrual compares. */
  function MonthDay(d: Date): int {
    d.month * 100 + d.day
  }

  /** Because a day is always below 100, the key orders (month, day) pairs
      lexicographically. */
  lemma MonthDayOrder(a: Date, b: Date)
    requires ValidDate(a) && ValidDate(b)
    ensures MonthDay(a) < MonthDay(b) <==> a.month < b.month || (a.month == b.month && a.day < b.day)
    ensures MonthDay(a) == MonthDay(b) <==> a.month == b.month && a.day == b.day
  {
    if a.month < b.month {
      assert MonthDay(a) <= a.month * 100 + 31 < (a.month + 1) * 100 <= MonthDay(b);
    } else if a.month > b.month {
      assert MonthDay(b) <= b.month * 100 + 31 < (b.month + 1) * 100 <= MonthDay(a);
    }
  }

  /** The k-th anniversary of `start` has been reached by `today`. */
  predicate AnniversaryReached(start: Date, today: Date, k: int) {
    DateLe(Date(start.year + k, start.month, start.day), today)
  }

  /** Completed years of service: the calendar-year difference, one less when
      this year's anniversary is still ahead, and never below zero. It is the
      number of anniversaries reached so far. */
  function YearsOfService(start: Date, today: Date): (years: nat)
    requires ValidDate(start) && ValidDate(today)
    ensures forall k :: 1 <= k <= years ==> AnniversaryReached(start, today, k)
    ensures !AnniversaryReached(start, today, years + 1)
  {
    MonthDayOrder(today, start);
    var difference := today.year - start.year;
    var completed := if MonthDay(today) < MonthDay(start) then difference - 1 else difference;
    if completed < 0 then 0 else completed
  }

  /** Years of service never decrease as time passes. */
  lemma YearsOfServiceMonotone(start: Date, t1: Date, t2: Date)
    requires ValidDate(start) && ValidDate(t1) && ValidDate(t2)
    requires DateLe(t1, t2)
    ensures YearsOfService(start, t1) <= YearsOfService(start, t2)
  {
    var y1 := YearsOfService(start, t1);
    if y1 > 0 {
      assert AnniversaryReached(start, t1, y1);
      assert AnniversaryReached(start, t2, y1);
    }
  }

  /** A start date on the anniversary itself counts the year as completed. */
  lemma FullYearOnAnniversary(start: Date, n: nat)
    requires ValidDate(start)
    ensures YearsOfService(start, Date(start.year + n, start.month, start.day)) == n
  {
    var today := Date(start.year + n, start.month, start.day);
    assert AnniversaryReached(start, today, n);
    assert !AnniversaryReached(start, today, n + 1);
  }

  const DaysPerYear := 15

  /** The start-date field: empty, text that is not a date, or a date. */
  datatype StartDate = Empty | Unparseable | Parsed(date: Date)

  /** What the accrual effect does to the vacation field. */
  datatype VacationUpdate = Unchanged | SetTo(days: Num)

  /** The vacation effect: 15 days per completed year minus the consumed
      days, floored at 0. An empty start date leaves the field alone; a start
      date that is not a date makes every step NaN, which the floor turns
      into 0. `consumed` is subtracted with JavaScript's numeric coercion. */
  function VacationEffect(start: StartDate, today: Date, consumed: Value): (u: VacationUpdate)
    requires ValidDate(today)
    requires start.Parsed? ==> ValidDate(start.date)
    ensures start.Empty? <==> u.Unchanged?
    ensures u.SetTo? ==> !u.days.NaN? && !u.days.NegInfinity? && (u.days.Finite? ==> u.days.n >= 0)
    ensures start.Unparseable? ==> u == SetTo(Finite(0))
  {
    match start
    case Empty => Unchanged
    case Unparseable => SetTo(FloorAtZero(NaN))
    case Parsed(date) => SetTo(Remaining(YearsOfService(date, today), consumed))
  }

  /** The days left after `years` of service once `consumed` is subtracted,
      floored at 0. */
  function Remaining(years: nat, consumed: Value): (r: Num)
    ensures !r.NaN? && !r.NegInfinity? && (r.Finite? ==> r.n >= 0)
    ensures consumed.Number? && consumed.num.Finite? ==>
      var accrued := DaysPerYear * years;
      var c := consumed.num.n;
      r == Finite(if accrued >= c then accrued - c else 0)
  {
    FloorAtZero(Sub(Finite(years * DaysPerYear), ToNumberValue(consumed)))
  }

  /** `x >= 0 ? x : 0`: NaN and minus infinity compare false and give 0. */
  function FloorAtZero(x: Num): (r: Num)
    ensures !r.NaN? && !r.NegInfinity?
    ensures r.Finite? ==> r.n >= 0
    ensures x.Finite? ==> r == Finite(if x.n >= 0 then x.n else 0)
    ensures x.NaN? || x.NegInfinity? ==> r == Finite(0)
    ensures x.PosInfinity? ==> r == x
  {
    match x
    case Finite(n) => if n >= 0 then x else Finite(0)
    case PosInfinity => x
    case _ => Finite(0)
  }

  /** With a number of consumed days, the field is set to the accrued days
      minus the consumed ones, or 0 when more were consumed than accrued. */
  lemma RemainingVacation(start: Date, today: Date, consumed: int)
    requires ValidDate(start) && ValidDate(today)
    ensures var accrued := DaysPerYear * YearsOfService(start, today);
      VacationEffect(Parsed(start), today, Number(Finite(consumed)))
        == SetTo(Finite(if accrued >= consumed then accrued - consumed else 0))
  {
  }

  /** The consumed days the form keeps: the response's `dias` when both a
      worker and a start date are selected and the request succeeded, with
      any falsy answer (missing, null, 0, empty) replaced by 0, and 0 in every
      other case. `response` is `None` when the request failed. */
  function ConsumedDays(trabajadorId: Text, fechaInicio: Text, response: Option<Value>): (v: Value)
    ensures !TruthyText(trabajadorId) || !TruthyText(fechaInicio) ==> v == Number(Finite(0))
    ensures response.None? ==> v == Number(Finite(0))
    ensures v == Number(Finite(0)) || Truthy(v)
    ensures Truthy(v) <==>
      TruthyText(trabajadorId) && TruthyText(fechaInicio) && response.Some? && Truthy(response.value)
    ensures Truthy(v) ==> v == response.value
  {
    if TruthyText(trabajadorId) && TruthyText(fechaInicio) then
      match response
      case Some(dias) => if Truthy(dias) then dias else Number(Finite(0))
      case None => Number(Finite(0))
    else Number(Finite(0))
  }

  /** The consumed-days default never lowers the remaining vacation below 0
      and, when no answer is available, leaves the whole accrual. */
  lemma NoAnswerKeepsAccrual(start: Date, today: Date, trabajadorId: Text, fechaInicio: Text)
    requires ValidDate(start) && ValidDate(today)
    ensures VacationEffect(Parsed(start), today, ConsumedDays(trabajadorId, fechaInicio, None))
      == SetTo(Finite(DaysPerYear * YearsOfService(start, today)))
  {
    var years := YearsOfService(start, today);
    var consumed := ConsumedDays(trabajadorId, fechaInicio, None);
    assert consumed == Number(Finite(0));
    assert VacationEffect(Parsed(start), today, consumed) == SetTo(Remaining(years, consumed));
    NothingConsumed(years);
  }

  lemma NothingConsumed(years: nat)
    ensures Remaining(years, Number(Finite(0))) == Finite(DaysPerYear * years)
  {
  }

  /** The values the submit handler reads from the form. The amounts are the
      results of `parseFloat`, taken as inputs. */
  datatype ContractData = ContractData(
    trabajadorId: Text,
    tipoContrato: Text,
    fechaInicio: Text,
    fechaTermino: Text,
    jornadaId: Text,
    departamentoId: Text,
    cargoId: Text,
    descripcion: Text,
    sueldoBase: Num,
    bonoColacion: Num,
    bonoLocomocion: Num,
    otrosBonos: Num,
    vacaciones: Value,
    afpId: Text,
    isapreId: Text
  )

  /** The body posted to the contracts endpoint. */
  datatype ContractPayload = ContractPayload(
    idTrabajadores: Text,
    tipoIdContrato: Num,
    fechaInicio: Text,
    fechaTermino: Value,
    jornadaLaboralId: Text,
    idDepartamentos: Text,
    idCargo: Text,
    descripcionFunciones: Value,
    sueldoBase: Num,
    bonoColacion: Num,
    bonoLocomocion: Num,
    otrosBonos: Num,
    vacaciones: Num,
    idAfp: Value,
    idIsapre: Value
  )

  /** `text || null`. */
  function TextOrNull(t: Text): (v: Value)
    ensures TruthyText(t) ==> v == Str(t.value)
    ensures !TruthyText(t) ==> v == Null
  {
    if TruthyText(t) then Str(t.value) else Null
  }

  /** `parseInt(text) || null`: a missing or unparseable identifier, or one
      that reads as zero, becomes null; a digit text gives the identifier it
      spells. */
  function IdOrNull(t: Text): (v: Value)
    ensures v == Null || (v.Number? && TruthyNum(v.num) && !v.num.NaN?)
    ensures t.None? || ParseInt(t.value, Unspecified).NaN? ==> v == Null
    ensures t.Some? && TruthyNum(ParseInt(t.value, Unspecified)) ==> v == Number(ParseInt(t.value, Unspecified))
    ensures IsIdText(t) ==>
      v == (if DigitsValue(t.value) == 0 then Null else Number(Finite(DigitsValue(t.value))))
  {
    var parsed := ParseIntValue(if t.Some? then Str(t.value) else Undefined);
    var v := if TruthyNum(parsed) then Number(parsed) else Null;
    if IsIdText(t) then ParseIntOfDigits(t.value, Unspecified); v else v
  }

  /** A non-empty digit text. */
  predicate IsIdText(t: Text) {
    t.Some? && |t.value| > 0 && AllDigits(t.value)
  }

  function BuildPayload(data: ContractData): (p: ContractPayload)
    ensures p.idTrabajadores == data.trabajadorId && p.fechaInicio == data.fechaInicio
    ensures p.jornadaLaboralId == data.jornadaId && p.idDepartamentos == data.departamentoId
    ensures p.idCargo == data.cargoId
    ensures data.tipoContrato.None? ==> p.tipoIdContrato.NaN?
    ensures data.tipoContrato.Some? ==> p.tipoIdContrato == ParseInt(data.tipoContrato.value, Ten)
    ensures IsIdText(data.tipoContrato) ==> p.tipoIdContrato == Finite(DigitsValue(data.tipoContrato.value))
    ensures TruthyText(data.fechaTermino) <==> p.fechaTermino != Null
    ensures TruthyText(data.descripcion) <==> p.descripcionFunciones != Null
    ensures TruthyText(data.fechaTermino) ==> p.fechaTermino == Str(data.fechaTermino.value)
    ensures TruthyText(data.descripcion) ==> p.descripcionFunciones == Str(data.descripcion.value)
    ensures p.sueldoBase == (if TruthyNum(data.sueldoBase) then data.sueldoBase else Finite(0))
    ensures p.bonoColacion == (if TruthyNum(data.bonoColacion) then data.bonoColacion else Finite(0))
    ensures p.bonoLocomocion == (if TruthyNum(data.bonoLocomocion) then data.bonoLocomocion else Finite(0))
    ensures p.otrosBonos == (if TruthyNum(data.otrosBonos) then data.otrosBonos else Finite(0))
    ensures p.vacaciones.Finite?
    ensures data.vacaciones.Number? && data.vacaciones.num.Finite? ==> p.vacaciones == data.vacaciones.num
    ensures data.afpId.None? || ParseInt(data.afpId.value, Unspecified).NaN? ==> p.idAfp == Null
    ensures data.isapreId.None? || ParseInt(data.isapreId.value, Unspecified).NaN? ==> p.idIsapre == Null
    ensures IsIdText(data.afpId) && DigitsValue(data.afpId.value) != 0 ==>
      p.idAfp == Number(Finite(DigitsValue(data.afpId.value)))
    ensures IsIdText(data.isapreId) && DigitsValue(data.isapreId.value) != 0 ==>
      p.idIsapre == Number(Finite(DigitsValue(data.isapreId.value)))
  {
    var tipo :=
      if data.tipoContrato.None? then NaN
      else if IsIdText(data.tipoContrato) then
        ParseIntOfDigits(data.tipoContrato.value, Ten);
        ParseInt(data.tipoContrato.value, Ten)
      else ParseInt(data.tipoContrato.value, Ten);
    ContractPayload(
      idTrabajadores := data.trabajadorId,
      tipoIdContrato := tipo,
      fechaInicio := data.fechaInicio,
      fechaTermino := TextOrNull(data.fechaTermino),
      jornadaLaboralId := data.jornadaId,
      idDepartamentos := data.departamentoId,
      idCargo := data.cargoId,
      descripcionFunciones := TextOrNull(data.descripcion),
      sueldoBase := OrZero(data.sueldoBase),
      bonoColacion := OrZero(data.bonoColacion),
      bonoLocomocion := OrZero(data.bonoLocomocion),
      otrosBonos := OrZero(data.otrosBonos),
      vacaciones := OrZero(ParseIntValue(data.vacaciones)),
      idAfp := IdOrNull(data.afpId),
      idIsapre := IdOrNull(data.isapreId)
    )
  }

  /** An AFP or Isapre chosen in its select box, whose option value is the
      decimal text of its identifier, is posted as that identifier. */
  lemma SelectedIdsPosted(data: ContractData, afp: nat, isapre: nat)
    requires afp > 0 && isapre > 0
    requires data.afpId == Some(NatToString(afp)) && data.isapreId == Some(NatToString(isapre))
    ensures BuildPayload(data).idAfp == Number(Finite(afp))
    ensures BuildPayload(data).idIsapre == Number(Finite(isapre))
  {
  }

  datatype SubmitOutcome = MissingFields | Posted(payload: ContractPayload)

  /** The fields the submit guard insists on, read from the payload. */
  predicate HasRequiredFields(p: ContractPayload) {
    && TruthyText(p.idTrabajadores)
    && TruthyNum(p.tipoIdContrato)
    && TruthyText(p.idDepartamentos)
    && TruthyText(p.jornadaLaboralId)
    && TruthyText(p.idCargo)
  }

  /** Submitting: the payload is posted unless one of the worker, contract
      type, department, working schedule or position is falsy, in which case
      nothing is posted. */
  function Submit(data: ContractData): (o: SubmitOutcome)
    ensures o.Posted? ==> o.payload == BuildPayload(data)
    ensures o.Posted? <==>
      && TruthyText(data.trabajadorId)
      && TruthyText(data.departamentoId)
      && TruthyText(data.jornadaId)
      && TruthyText(data.cargoId)
      && data.tipoContrato.Some?
      && TruthyNum(ParseInt(data.tipoContrato.value, Ten))
  {
    var p := BuildPayload(data);
    if HasRequiredFields(p) then Posted(p) else MissingFields
  }

  /** The fields the form's schema marks as required. */
  predicate SchemaAccepts(data: ContractData) {
    && TruthyText(data.trabajadorId)
    && TruthyText(data.tipoContrato)
    && TruthyText(data.fechaInicio)
    && TruthyText(data.jornadaId)
    && TruthyText(data.departamentoId)
    && TruthyText(data.cargoId)
  }

  /** Once the schema has accepted the form, the guard can only fail on a
      contract type whose text does not read as a non-zero integer. */
  lemma SchemaAcceptedSubmit(data: ContractData)
    requires SchemaAccepts(data)
    ensures Submit(data).MissingFields? <==> !TruthyNum(ParseInt(data.tipoContrato.value, Ten))
  {
  }

  /** The vacation days the accrual effect wrote into the form are posted
      unchanged. */
  lemma SubmittedVacation(data: ContractData, start: Date, today: Date, consumed: Value)
    requires ValidDate(start) && ValidDate(today)
    requires VacationEffect(Parsed(start), today, consumed).days.Finite?
    requires data.vacaciones == Number(VacationEffect(Parsed(start), today, consumed).days)
    ensures BuildPayload(data).vacaciones == VacationEffect(Parsed(start), today, consumed).days
  {
  }
}

=== FILE: filtered_list_controller.dfy ===
/** The contract and dependant listings: one table read a page at a time,
    narrowed to one worker when the request names one. Both endpoints build
    their statements the same way and differ only in the table and the worker
    column, which is also the name of the query parameter. */
module FilteredListController {
  import opened Strings
  import opened Js
  import opened SqlText
  import opened Request

  /** The two listings built this way: contracts and family dependants. */
  datatype Listing = Contratos | CargasFamiliares

  /** The column holding the worker, and the query parameter naming one. */
  function Owner(l: Listing): string {
    match l
    case Contratos => "trabajador_id"
    case CargasFamiliares => "id_trabajadores"
  }

  /** The row statement's head, as the source writes it. */
  function SelectRows(l: Listing): string {
    match l
    case Contratos => "SELECT * FROM contrato"
    case CargasFamiliares => "SELECT * FROM carga_familiar"
  }

  /** The count statement's head. */
  function SelectCount(l: Listing): string {
    match l
    case Contratos => "SELECT COUNT(*) FROM contrato"
    case CargasFamiliares => "SELECT COUNT(*) FROM carga_familiar"
  }

  /** The filter up to its placeholder. */
  function WhereHead(l: Listing): string {
    match l
    case Contratos => " WHERE trabajador_id = "
    case CargasFamiliares => " WHERE id_trabajadores = "
  }

  /** The optional filter as the source appends it: ` WHERE <owner> = $1`. */
  function WhereText(l: Listing, filtered: bool): string {
    if filtered then WhereHead(l) + Token(1) else ""
  }

  /** The paging clause, its placeholders numbered after the `n` parameters
      already pushed. */
  function PageText(n: nat): string {
    " ORDER BY id LIMIT " + Token(n + 1) + " OFFSET " + Token(n + 2)
  }

  /** The row statement's text: the head, the optional filter, then the
      paging clause. */
  function RowsText(l: Listing, filtered: bool): string {
    SelectRows(l) + WhereText(l, filtered) + PageText(if filtered then 1 else 0)
  }

  /** The count statement's text: the same filter, unpaged. */
  function CountText(l: Listing, filtered: bool): string {
    SelectCount(l) + WhereText(l, filtered)
  }

  // The literal texts hold no `$` and start with no digit.

  lemma ContratosLiteralsSafe()
    ensures SafeText("SELECT * FROM contrato") && SafeText("SELECT COUNT(*) FROM contrato")
    ensures SafeText(" WHERE trabajador_id = ")
  {
  }

  lemma CargasLiteralsSafe()
    ensures SafeText("SELECT * FROM carga_familiar")
    ensures SafeText("SELECT COUNT(*) FROM carga_familiar")
    ensures SafeText(" WHERE id_trabajadores = ")
  {
  }

  lemma PageLiteralsSafe()
    ensures SafeText(" ORDER BY id LIMIT ") && SafeText(" OFFSET ")
  {
  }

  lemma ListingLiteralsSafe(l: Listing)
    ensures SafeText(SelectRows(l)) && SafeText(SelectCount(l)) && SafeText(WhereHead(l))
  {
    match l
    case Contratos => ContratosLiteralsSafe();
    case CargasFamiliares => CargasLiteralsSafe();
  }

  /** The filter as pieces. */
  function Where(l: Listing, filtered: bool): seq<Piece> {
    if filtered then [Lit(WhereHead(l)), Param(1)] else []
  }

  lemma WhereFacts(l: Listing, filtered: bool)
    ensures SafeLiterals(Where(l, filtered))
    ensures ParamsOf(Where(l, filtered)) == Numbers(1, if filtered then 1 else 0)
    ensures Render(Where(l, filtered)) == WhereText(l, filtered)
  {
    if filtered {
      ListingLiteralsSafe(l);
      LitThenParam(WhereHead(l), 1);
      assert Numbers(1, 1) == [1];
    }
  }

  /** The count statement reads `$1` exactly when it is filtered. */
  lemma CountTextPlaceholders(l: Listing, filtered: bool)
    ensures Placeholders(CountText(l, filtered)) == Numbers(1, if filtered then 1 else 0)
  {
    var head := [Lit(SelectCount(l))];
    ListingLiteralsSafe(l);
    LitAlone(SelectCount(l));
    WhereFacts(l, filtered);
    PiecesAppend(head, Where(l, filtered));
    RenderedParams(head + Where(l, filtered));
  }

  /** The paging clause as pieces. */
  lemma PageFacts(n: nat)
    ensures var ps := [Lit(" ORDER BY id LIMIT "), Param(n + 1)] + [Lit(" OFFSET "), Param(n + 2)];
      SafeLiterals(ps) && ParamsOf(ps) == [n + 1, n + 2] && Render(ps) == PageText(n)
  {
    PageLiteralsSafe();
    LitThenParam(" ORDER BY id LIMIT ", n + 1);
    LitThenParam(" OFFSET ", n + 2);
    PiecesAppend([Lit(" ORDER BY id LIMIT "), Param(n + 1)], [Lit(" OFFSET "), Param(n + 2)]);
  }

  /** The row statement reads the filter's `$1`, if any, then the limit and
      the offset as the next two numbers. */
  lemma RowsTextPlaceholders(l: Listing, filtered: bool)
    ensures var n := if filtered then 1 else 0;
      Placeholders(RowsText(l, filtered)) == Numbers(1, n + 2)
  {
    var n := if filtered then 1 else 0;
    var head := [Lit(SelectRows(l))];
    var where := Where(l, filtered);
    var page := [Lit(" ORDER BY id LIMIT "), Param(n + 1)] + [Lit(" OFFSET "), Param(n + 2)];
    SelectRowsPiece(l);
    WhereFacts(l, filtered);
    PageFacts(n);
    NumbersThenTwo(n);
    RenderedThree(head, where, page, RowsText(l, filtered), Numbers(1, n + 2));
  }

  lemma SelectRowsPiece(l: Listing)
    ensures var head := [Lit(SelectRows(l))];
      SafeLiterals(head) && ParamsOf(head) == [] && Render(head) == SelectRows(l)
  {
    ListingLiteralsSafe(l);
    LitAlone(SelectRows(l));
  }

  lemma NumbersThenTwo(n: nat)
    ensures Numbers(1, n + 2) == [] + Numbers(1, n) + [n + 1, n + 2]
  {
    NumbersSnoc(1, n);
    NumbersSnoc(1, n + 1);
  }

  /** A text begins with its prefix. */
  lemma PrefixOf<T>(a: seq<T>, b: seq<T>)
    ensures (a + b)[..|a|] == a
  {
  }

  /** `(page - 1) * limit` on query values, which JavaScript converts to
      numbers first. */
  function Offset(page: Value, limit: Value): (r: Num)
    ensures var p := ToNumberValue(page); var l := ToNumberValue(limit);
      && (p.Finite? && l.Finite? ==> r == Finite(PageOffset(p.n, l.n)))
      && (p.NaN? || l.NaN? ==> r.NaN?)
  {
    var p := ToNumberValue(page);
    var l := ToNumberValue(limit);
    OffsetOfNumbers(p, l);
    Mul(Sub(p, Finite(1)), l)
  }

  /** `(page - 1) * limit` in JavaScript arithmetic. */
  lemma OffsetOfNumbers(p: Num, l: Num)
    ensures p.Finite? && l.Finite? ==> Mul(Sub(p, Finite(1)), l) == Finite(PageOffset(p.n, l.n))
    ensures p.NaN? || l.NaN? ==> Mul(Sub(p, Finite(1)), l).NaN?
  {
    if p.Finite? && l.Finite? {
      assert Sub(p, Finite(1)) == Finite(p.n - 1);
    }
  }

  /** The row statement: with a truthy worker it is bound as `$1` and the
      limit and offset follow; otherwise they are `$1` and `$2`. */
  function RowsStatement(l: Listing, id: Value, limit: Value, offset: Num): (st: Statement)
    ensures NumberedInOrder(st)
    ensures Truthy(id) ==> st.params == [id, limit, Number(offset)]
    ensures !Truthy(id) ==> st.params == [limit, Number(offset)]
  {
    RowsTextPlaceholders(l, Truthy(id));
    Statement(RowsText(l, Truthy(id)), (if Truthy(id) then [id] else []) + [limit, Number(offset)])
  }

  /** The count statement: the worker alone when it is truthy, else nothing. */
  function CountStatement(l: Listing, id: Value): (st: Statement)
    ensures NumberedInOrder(st)
    ensures st.params == if Truthy(id) then [id] else []
  {
    CountTextPlaceholders(l, Truthy(id));
    Statement(CountText(l, Truthy(id)), if Truthy(id) then [id] else [])
  }

  /** The statements and numbers of one listing request. `page` and `limit`
      are the query values themselves: the source does not parse them. */
  datatype FilteredPlan = FilteredPlan(rows: Statement, count: Statement, page: Value, limit: Value, offset: Num)

  /** `{ page = 1, limit = 10, <owner> } = req.query`, the offset of the
      page, and the statements: both filter on the worker named by the
      owner parameter when it is truthy, and the row statement is paged. */
  function FilteredPlanFor(l: Listing, query: Params): (p: FilteredPlan)
    ensures NumberedInOrder(p.rows) && NumberedInOrder(p.count)
    ensures var id := Get(query, Owner(l));
      && (Truthy(id) ==> p.rows.params == [id, p.limit, Number(p.offset)] && p.count.params == [id])
      && (!Truthy(id) ==> p.rows.params == [p.limit, Number(p.offset)] && p.count.params == [])
    ensures "page" !in query ==> p.page == Number(Finite(1))
    ensures "limit" !in query ==> p.limit == Number(Finite(10))
    ensures "page" in query && query["page"] != Undefined ==> p.page == query["page"]
    ensures "limit" in query && query["limit"] != Undefined ==> p.limit == query["limit"]
    ensures p.offset == Offset(p.page, p.limit)
  {
    var page := GetOr(query, "page", Number(Finite(1)));
    var limit := GetOr(query, "limit", Number(Finite(10)));
    var offset := Offset(page, limit);
    var id := Get(query, Owner(l));
    FilteredPlan(RowsStatement(l, id, limit, offset), CountStatement(l, id), page, limit, offset)
  }

  /** The count is filtered exactly as the rows are: both texts continue
      their `SELECT` head with the same condition. */
  lemma CountFiltersAsRows(l: Listing, query: Params)
    ensures var p := FilteredPlanFor(l, query);
      var w := WhereText(l, Truthy(Get(query, Owner(l))));
      && p.count.text == SelectCount(l) + w
      && p.rows.text[..|SelectRows(l) + w|] == SelectRows(l) + w
  {
    var filtered := Truthy(Get(query, Owner(l)));
    var head := SelectRows(l) + WhereText(l, filtered);
    var rest := PageText(if filtered then 1 else 0);
    PrefixOf(head, rest);
  }

  /** The highest placeholder of each statement is its parameter count, so
      no parameter is left without a reader and none is missing. */
  lemma FilteredPlanBinds(l: Listing, query: Params)
    ensures var p := FilteredPlanFor(l, query);
      && BindsExactly(p.rows) && BindsExactly(p.count)
      && Placeholders(p.rows.text)[|p.rows.params| - 1] == |p.rows.params|
  {
    var p := FilteredPlanFor(l, query);
    NumberedInOrderBinds(p.rows);
    NumberedInOrderBinds(p.count);
  }

  /** Without query parameters the listing is unfiltered and reads the first
      10 rows. */
  lemma FilteredDefaults(l: Listing)
    ensures var p := FilteredPlanFor(l, map[]);
      && p.rows.params == [Number(Finite(10)), Number(Finite(0))]
      && p.count.params == []
      && p.rows.text == RowsText(l, false) && p.count.text == SelectCount(l)
  {
  }

  /** A worker given as the empty string is no filter at all, the same as a
      missing one. */
  lemma EmptyOwnerIsNoFilter(l: Listing, query: Params)
    requires Owner(l) in query && query[Owner(l)] == Str("")
    ensures FilteredPlanFor(l, query) == FilteredPlanFor(l, query - {Owner(l)})
  {
    var rest := query - {Owner(l)};
    assert "page" != Owner(l) && "limit" != Owner(l);
    var page := GetOr(query, "page", Number(Finite(1)));
    var limit := GetOr(query, "limit", Number(Finite(10)));
    assert GetOr(rest, "page", Number(Finite(1))) == page;
    assert GetOr(rest, "limit", Number(Finite(10))) == limit;
    var offset := Offset(page, limit);
    SameWhenFalsy(l, Get(query, Owner(l)), Get(rest, Owner(l)), limit, offset);
  }

  /** Two worker values JavaScript reads as false give the same statements. */
  lemma SameWhenFalsy(l: Listing, a: Value, b: Value, limit: Value, offset: Num)
    requires !Truthy(a) && !Truthy(b)
    ensures RowsStatement(l, a, limit, offset) == RowsStatement(l, b, limit, offset)
    ensures CountStatement(l, a) == CountStatement(l, b)
  {
  }

  /** The response: the rows, the parsed count, and `Number` of the page and
      the limit. */
  datatype FilteredResponse<Row> = FilteredResponse(data: seq<Row>, total: Num, page: Num, limit: Num)

  function FilteredResponseFor<Row>(p: FilteredPlan, rows: seq<Row>, count: nat): (r: FilteredResponse<Row>)
    ensures r.data == rows && r.total == Finite(count)
    ensures r.page == ToNumberValue(p.page) && r.limit == ToNumberValue(p.limit)
    ensures p.page.Number? ==> r.page == p.page.num
    ensures p.limit.Number? ==> r.limit == p.limit.num
  {
    ParseIntOfDecimal(count, Unspecified);
    FilteredResponse(rows, ParseInt(NatToString(count), Unspecified), ToNumberValue(p.page), ToNumberValue(p.limit))
  }

  /** A request such as `?page=2&limit=10` with no worker: the page's rows are
      read from the page's offset, unfiltered, and the response answers with
      the page and limit as numbers. */
  lemma TextQueryPlan<Row>(l: Listing, page: nat, limit: nat, rows: seq<Row>, count: nat)
    requires page >= 1
    ensures var q := map["page" := Str(NatToString(page)), "limit" := Str(NatToString(limit))];
      var p := FilteredPlanFor(l, q);
      && p.offset == Finite(PageOffset(page, limit))
      && p.rows.params == [Str(NatToString(limit)), Number(Finite(PageOffset(page, limit)))]
      && p.count.params == []
      && FilteredResponseFor(p, rows, count) == FilteredResponse(rows, Finite(count), Finite(page), Finite(limit))
  {
    var q := map["page" := Str(NatToString(page)), "limit" := Str(NatToString(limit))];
    assert Owner(l) !in q by { assert Owner(l) != "page" && Owner(l) != "limit"; }
    TextQueryValues(l, q, page, limit);
    ParseIntOfDecimal(count, Unspecified);
  }

  lemma TextQueryValues(l: Listing, q: Params, page: nat, limit: nat)
    requires "page" in q && q["page"] == Str(NatToString(page))
    requires "limit" in q && q["limit"] == Str(NatToString(limit))
    requires Owner(l) !in q
    ensures var p := FilteredPlanFor(l, q);
      && !Truthy(Get(q, Owner(l)))
      && p.limit == Str(NatToString(limit))
      && ToNumberValue(p.page) == Finite(page) && ToNumberValue(p.limit) == Finite(limit)
  {
    ToNumberOfDecimal(page);
    ToNumberOfDecimal(limit);
  }
}

=== FILE: js.dfy ===
/** The slice of JavaScript value semantics the modelled code leans on:
    `null`/`undefined`, the numbers that arise (integers, NaN and the two
    infinities), truthiness, `||` defaults, `parseInt`, `Number(text)` and the
    arithmetic the controllers do on query values. */
module Js {
  import opened Strings

  datatype Option<T> = None | Some(value: T)

  /** A possibly missing text: `None` is `undefined` or `null`. */
  type Text = Option<string>

  /** JavaScript numbers that the modelled code can produce. Only integral
      finite values are represented. */
  datatype Num = NaN | PosInfinity | NegInfinity | Finite(n: int)

  /** Scalar values as they appear in request bodies, query parameters and
      statement parameters. */
  datatype Value = Undefined | Null | Str(s: string) | Number(num: Num)

  /** JavaScript truthiness of a text: present and non-empty. */
  predicate TruthyText(t: Text) {
    t.Some? && t.value != ""
  }

  /** JavaScript truthiness of a number: neither NaN nor zero. */
  predicate TruthyNum(x: Num) {
    !x.NaN? && x != Finite(0)
  }

  predicate Truthy(v: Value) {
    match v
    case Undefined => false
    case Null => false
    case Str(s) => s != ""
    case Number(x) => TruthyNum(x)
  }

  /** `v || null`. */
  function OrNull(v: Value): (r: Value)
    ensures Truthy(v) ==> r == v
    ensures !Truthy(v) ==> r == Null
  {
    if Truthy(v) then v else Null
  }

  /** `x || 0` for a number: NaN and zero give 0, and every other number,
      an infinity included, is kept. */
  function OrZero(x: Num): (r: Num)
    ensures TruthyNum(x) ==> r == x
    ensures !TruthyNum(x) ==> r == Finite(0)
    ensures !r.NaN?
  {
    if TruthyNum(x) then x else Finite(0)
  }

  /** The characters JavaScript treats as white space when it trims text
      (WhiteSpace and LineTerminator of the language grammar), which are also
      the characters `\s` matches in a regular expression. */
  predicate IsWhiteSpace(c: char) {
    var n := c as int;
    n == 0x09 || n == 0x0A || n == 0x0B || n == 0x0C || n == 0x0D || n == 0x20
    || n == 0xA0 || n == 0x1680 || (0x2000 <= n <= 0x200A) || n == 0x2028
    || n == 0x2029 || n == 0x202F || n == 0x205F || n == 0x3000 || n == 0xFEFF
  }

  function TrimStart(s: string): (r: string)
    ensures |r| <= |s| && r == s[|s| - |r|..]
    ensures |r| > 0 ==> !IsWhiteSpace(r[0])
    ensures forall i :: 0 <= i < |s| - |r| ==> IsWhiteSpace(s[i])
  {
    if |s| > 0 && IsWhiteSpace(s[0]) then TrimStart(s[1..]) else s
  }

  function TrimEnd(s: string): (r: string)
    ensures |r| <= |s| && r == s[..|r|]
    ensures |r| > 0 ==> !IsWhiteSpace(r[|r| - 1])
    ensures forall i :: |r| <= i < |s| ==> IsWhiteSpace(s[i])
  {
    if |s| > 0 && IsWhiteSpace(s[|s| - 1]) then TrimEnd(s[..|s| - 1]) else s
  }

  /** Value of a character as a digit in bases up to 36 (`0`-`9`, then the
      letters of either case), or 36 when it is no such digit. */
  function RadixDigitValue(c: char): (v: nat)
    ensures v <= 36
    ensures IsDigit(c) ==> v == DigitValue(c)
    ensures v < 10 ==> IsDigit(c)
  {
    if IsDigit(c) then DigitValue(c)
    else if 'a' <= c <= 'z' then c as int - 'a' as int + 10
    else if 'A' <= c <= 'Z' then c as int - 'A' as int + 10
    else 36
  }

  /** Length of the longest prefix of `s` made of digits of base `radix`. */
  function RadixRun(s: string, radix: nat): (k: nat)
    ensures k <= |s|
    ensures forall i :: 0 <= i < k ==> RadixDigitValue(s[i]) < radix
    ensures k < |s| ==> RadixDigitValue(s[k]) >= radix
  {
    if |s| == 0 || RadixDigitValue(s[0]) >= radix then 0 else 1 + RadixRun(s[1..], radix)
  }

  function RadixValue(s: string, radix: nat): nat
    requires forall i :: 0 <= i < |s| ==> RadixDigitValue(s[i]) < radix
  {
    if |s| == 0 then 0
    else RadixValue(s[..|s| - 1], radix) * radix + RadixDigitValue(s[|s| - 1])
  }

  /** In base ten, the radix reading agrees with the plain digit reading. */
  lemma {:induction false} DecimalRadixValue(s: string)
    requires AllDigits(s)
    ensures forall i :: 0 <= i < |s| ==> RadixDigitValue(s[i]) < 10
    ensures RadixValue(s, 10) == DigitsValue(s)
  {
    if |s| > 0 {
      DecimalRadixValue(s[..|s| - 1]);
    }
  }

  /** The radix `parseInt` is called with: none, or an explicit 10. */
  datatype Radix = Unspecified | Ten

  /** `parseInt(s)` and `parseInt(s, 10)`: skip leading white space, take an
      optional sign, with no radix also accept a `0x`/`0X` prefix for base 16,
      then read the longest run of digits; NaN when that run is empty. */
  function ParseInt(s: string, radix: Radix): (r: Num)
    ensures !r.PosInfinity? && !r.NegInfinity?
  {
    ParseSigned(TrimStart(s), radix)
  }

  /** `parseInt` after the leading white space. */
  function ParseSigned(t: string, radix: Radix): (r: Num)
    ensures !r.PosInfinity? && !r.NegInfinity?
  {
    var negative := |t| > 0 && t[0] == '-';
    var u := if |t| > 0 && (t[0] == '-' || t[0] == '+') then t[1..] else t;
    match ParseMagnitude(u, radix)
    case None => NaN
    case Some(magnitude) =>
      var m: int := magnitude;
      Finite(if negative then -m else m)
  }

  /** `parseInt` after the sign: the value of the longest digit run, in base
      16 after a `0x` prefix when no radix is given, else in base 10. */
  function ParseMagnitude(u: string, radix: Radix): Option<nat> {
    var hex := radix == Unspecified && |u| >= 2 && u[0] == '0' && (u[1] == 'x' || u[1] == 'X');
    var base := if hex then 16 else 10;
    var digits := if hex then u[2..] else u;
    var k := RadixRun(digits, base);
    if k == 0 then None else Some(RadixValue(digits[..k], base))
  }

  /** `parseInt` reads back what `String(n)` writes, for any radix argument. */
  lemma ParseIntOfDecimal(n: nat, radix: Radix)
    ensures ParseInt(NatToString(n), radix) == Finite(n)
  {
    ParseIntOfDigits(NatToString(n), radix);
  }

  /** `parseInt` reads a plain digit string as its decimal value. */
  lemma ParseIntOfDigits(s: string, radix: Radix)
    requires |s| > 0 && AllDigits(s)
    ensures ParseInt(s, radix) == Finite(DigitsValue(s))
  {
    DigitIsPlain(s[0]);
    ParseMagnitudeOfDigits(s, radix);
    UnsignedText(s, radix);
  }

  /** A digit is neither white space nor a sign. */
  lemma DigitIsPlain(c: char)
    requires IsDigit(c)
    ensures !IsWhiteSpace(c) && c != '-' && c != '+'
  {
  }

  /** Text that starts with neither white space nor a sign is read by its
      magnitude alone. */
  lemma UnsignedText(s: string, radix: Radix)
    requires |s| > 0 && !IsWhiteSpace(s[0]) && s[0] != '-' && s[0] != '+'
    requires ParseMagnitude(s, radix).Some?
    ensures ParseInt(s, radix) == Finite(ParseMagnitude(s, radix).value)
  {
    assert TrimStart(s) == s;
  }

  lemma ParseMagnitudeOfDigits(s: string, radix: Radix)
    requires |s| > 0 && AllDigits(s)
    ensures ParseMagnitude(s, radix) == Some(DigitsValue(s))
  {
    assert !(|s| >= 2 && s[0] == '0' && (s[1] == 'x' || s[1] == 'X')) by {
      if |s| >= 2 {
        assert IsDigit(s[1]);
      }
    }
    DecimalRun(s);
    DecimalRadixValue(s);
    assert s[..|s|] == s;
  }

  /** A decimal digit string is read to its end. */
  lemma {:induction false} DecimalRun(s: string)
    requires AllDigits(s)
    ensures RadixRun(s, 10) == |s|
  {
    if |s| > 0 {
      DecimalRun(s[1..]);
    }
  }

  /** `parseInt(v)` on an arbitrary value: the value is first turned into text
      (`"null"`, `"undefined"`, `"NaN"` and `"Infinity"` read as NaN). */
  function ParseIntValue(v: Value): (r: Num)
    ensures !r.PosInfinity? && !r.NegInfinity?
    ensures v.Number? && v.num.Finite? ==> r == v.num
  {
    match v
    case Str(s) => ParseInt(s, Unspecified)
    case Number(Finite(n)) => Finite(n)
    case _ => NaN
  }

  /** `String(v)`: how a template literal writes a value. */
  function ToText(v: Value): (r: string)
    ensures v.Str? ==> r == v.s
  {
    match v
    case Undefined => "undefined"
    case Null => "null"
    case Str(s) => s
    case Number(NaN) => "NaN"
    case Number(PosInfinity) => "Infinity"
    case Number(NegInfinity) => "-Infinity"
    case Number(Finite(n)) => if n < 0 then "-" + NatToString(-n) else NatToString(n)
  }

  /** `Number(s)` for text: surrounding white space is ignored, empty text is
      0, a signed decimal integer or an unsigned `0x`/`0o`/`0b` literal is its
      value, anything else is NaN. */
  function ToNumber(s: string): (r: Num)
    ensures !r.PosInfinity? && !r.NegInfinity?
    ensures TrimEnd(TrimStart(s)) == "" ==> r == Finite(0)
  {
    var t := TrimEnd(TrimStart(s));
    if t == "" then Finite(0)
    else if |t| > 2 && t[0] == '0' && t[1] in "xXoObB" then
      var base := if t[1] in "xX" then 16 else if t[1] in "oO" then 8 else 2;
      var digits := t[2..];
      if RadixRun(digits, base) == |digits| then Finite(RadixValue(digits, base)) else NaN
    else
      var negative := t[0] == '-';
      var digits := if t[0] == '-' || t[0] == '+' then t[1..] else t;
      if |digits| > 0 && AllDigits(digits) then
        var magnitude: int := DigitsValue(digits);
        Finite(if negative then -magnitude else magnitude)
      else NaN
  }

  /** `Number` reads a plain digit string as its decimal value. */
  lemma ToNumberOfDigits(s: string)
    requires |s| > 0 && AllDigits(s)
    ensures ToNumber(s) == Finite(DigitsValue(s))
  {
    DigitIsPlain(s[0]);
    DigitIsPlain(s[|s| - 1]);
    assert TrimStart(s) == s;
    assert TrimEnd(s) == s;
    if |s| > 2 {
      assert IsDigit(s[1]) && s[1] !in "xXoObB";
    }
    assert s[0] != '-' && s[0] != '+';
  }

  /** `Number` reads back what `String(n)` writes. */
  lemma ToNumberOfDecimal(n: nat)
    ensures ToNumber(NatToString(n)) == Finite(n)
  {
    ToNumberOfDigits(NatToString(n));
  }

  /** `Number(v)` for a query value, which is either text or an untouched default. */
  function ToNumberValue(v: Value): (r: Num)
    ensures v.Number? ==> r == v.num
  {
    match v
    case Str(s) => ToNumber(s)
    case Number(x) => x
    case Null => Finite(0)
    case Undefined => NaN
  }

  function Negate(x: Num): Num {
    match x
    case NaN => NaN
    case PosInfinity => NegInfinity
    case NegInfinity => PosInfinity
    case Finite(n) => Finite(-n)
  }

  /** `a + b` on numbers. */
  function Add(a: Num, b: Num): (r: Num)
    ensures a.Finite? && b.Finite? ==> r == Finite(a.n + b.n)
    ensures a.NaN? || b.NaN? ==> r.NaN?
  {
    match (a, b)
    case (NaN, _) => NaN
    case (_, NaN) => NaN
    case (PosInfinity, NegInfinity) => NaN
    case (NegInfinity, PosInfinity) => NaN
    case (PosInfinity, _) => PosInfinity
    case (NegInfinity, _) => NegInfinity
    case (_, PosInfinity) => PosInfinity
    case (_, NegInfinity) => NegInfinity
    case (Finite(x), Finite(y)) => Finite(x + y)
  }

  /** `a - b` on numbers. */
  function Sub(a: Num, b: Num): (r: Num)
    ensures a.Finite? && b.Finite? ==> r == Finite(a.n - b.n)
    ensures a.NaN? || b.NaN? ==> r.NaN?
  {
    Add(a, Negate(b))
  }

  /** Sign of a number that is not NaN: -1, 0 or 1. */
  function Sign(x: Num): int
    requires !x.NaN?
  {
    match x
    case PosInfinity => 1
    case NegInfinity => -1
    case Finite(n) => if n > 0 then 1 else if n < 0 then -1 else 0
  }

  /** `a * b` on numbers: an infinity times zero is NaN. */
  function Mul(a: Num, b: Num): (r: Num)
    ensures a.Finite? && b.Finite? ==> r == Finite(a.n * b.n)
    ensures a.NaN? || b.NaN? ==> r.NaN?
  {
    if a.NaN? || b.NaN? then NaN
    else if a.Finite? && b.Finite? then Finite(a.n * b.n)
    else if Sign(a) * Sign(b) == 0 then NaN
    else if Sign(a) * Sign(b) > 0 then PosInfinity
    else NegInfinity
  }

  /** `Math.ceil(total / d)` for a non-negative integer `total`. A zero divisor
      gives Infinity (or NaN for 0/0); dividing by an infinity gives 0. */
  function CeilDiv(total: nat, d: Num): (r: Num)
    ensures d.Finite? && d.n > 0 ==>
      r.Finite? && r.n >= 0 && r.n * d.n >= total && (r.n - 1) * d.n < total
    ensures d == Finite(0) ==> (if total == 0 then r.NaN? else r.PosInfinity?)
    ensures d.NaN? ==> r.NaN?
  {
    match d
    case NaN => NaN
    case PosInfinity => Finite(0)
    case NegInfinity => Finite(0)
    case Finite(l) =>
      if l == 0 then (if total == 0 then NaN else PosInfinity)
      else if l > 0 then
        var q := (total + l - 1) / l;
        CeilDivBounds(total, l);
        Finite(q)
      else Finite(-(total / -l))
  }

  /** The integer quotient rounded up is the least multiple count covering `total`. */
  lemma CeilDivBounds(total: nat, l: int)
    requires l > 0
    ensures (total + l - 1) / l >= 0
    ensures ((total + l - 1) / l) * l >= total
    ensures ((total + l - 1) / l - 1) * l < total
  {
    var q := (total + l - 1) / l;
    var m := (total + l - 1) % l;
    assert total + l - 1 == q * l + m;
    assert 0 <= m < l;
    assert q * l == total + l - 1 - m;
    assert (q - 1) * l == q * l - l;
  }
}

=== FILE: request.dfy ===
/** Request query strings, bodies and route parameters, as the controllers
    see them after Express has parsed them. */
module Request {
  import opened Js

  /** A parsed query string or body: an absent key reads as `undefined`. */
  type Params = map<string, Value>

  function Get(m: Params, key: string): (v: Value)
    ensures key !in m ==> v == Undefined
    ensures key in m ==> v == m[key]
  {
    if key in m then m[key] else Undefined
  }

  /** A destructuring default: it applies when the key is absent or `undefined`. */
  function GetOr(m: Params, key: string, default: Value): (v: Value)
    ensures v == Undefined ==> default == Undefined
    ensures key !in m ==> v == default
    ensures key in m && m[key] != Undefined ==> v == m[key]
  {
    if key in m && m[key] != Undefined then m[key] else default
  }

  /** The rows before page `page` when each page holds `limit` rows:
      `(page - 1) * limit`. */
  function PageOffset(page: int, limit: int): (r: int)
    ensures page >= 1 && limit >= 0 ==> r >= 0
    ensures page == 1 ==> r == 0
  {
    (page - 1) * limit
  }
}

=== FILE: rut.dfy ===
/** Validation of a Chilean RUT (national identity number), written
    `12.345.678-9`: a number, optionally grouped with dots, a hyphen and a
    modulo-11 check character (`0`-`9` or `K`). The front end carries two
    independent validators:
    - `validarRut` of the worker form, modelled by `ValidarRut`;
    - `validarRutCompleto` of the worker list page, modelled as written by
      `ValidarRutCompletoAsWritten` and with its weight table repaired by
      `ValidarRutCompleto`. */
module Rut {
  import opened Strings
  import opened Js

  /** Weight of the digit `i` places from the right: 2, 3, 4, 5, 6, 7, 2, ... */
  function Weight(i: nat): nat {
    2 + i % 6
  }

  /** Weighted sum of the `k` rightmost digits of `ds`. */
  function PartialSum(ds: string, k: nat): nat
    requires AllDigits(ds) && k <= |ds|
  {
    if k == 0 then 0 else PartialSum(ds, k - 1) + DigitValue(ds[|ds| - k]) * Weight(k - 1)
  }

  /** The modulo-11 weighted sum of a RUT number. */
  function WeightedSum(ds: string): nat
    requires AllDigits(ds)
  {
    PartialSum(ds, |ds|)
  }

  predicate IsCheckChar(c: char) {
    IsDigit(c) || c == 'K'
  }

  /** The amount a check character stands for: a digit its value, `K` ten. */
  function CheckValue(c: char): (v: nat)
    requires IsCheckChar(c)
    ensures v <= 10
  {
    if c == 'K' then 10 else DigitValue(c)
  }

  /** The check character of a weighted sum: 11 minus the remainder, with 11
      written `0` and 10 written `K`. It is the character that brings the sum
      to a multiple of 11. */
  function CheckChar(sum: nat): (c: char)
    ensures IsCheckChar(c)
    ensures (sum + CheckValue(c)) % 11 == 0
  {
    var dv := 11 - sum % 11;
    assert sum == 11 * (sum / 11) + sum % 11;
    if dv == 11 then '0' else if dv == 10 then 'K' else DigitChar(dv)
  }

  /** Exactly one check character completes a sum to a multiple of 11. */
  lemma CheckCharUnique(sum: nat, c: char)
    requires IsCheckChar(c)
    requires (sum + CheckValue(c)) % 11 == 0
    ensures c == CheckChar(sum)
  {
    var d := CheckChar(sum);
    var v, w := CheckValue(c), CheckValue(d);
    assert sum + v == 11 * ((sum + v) / 11);
    assert sum + w == 11 * ((sum + w) / 11);
    assert v - w == 11 * ((sum + v) / 11 - (sum + w) / 11);
    assert v == w;
    if c != 'K' && d != 'K' {
      assert DigitChar(DigitValue(c)) == c;
      assert DigitChar(DigitValue(d)) == d;
    }
  }

  lemma WeightStep(k: nat)
    ensures Weight(k + 1) == if Weight(k) == 7 then 2 else Weight(k) + 1
  {
  }

  /** The loop of `calcularDV`: walk the digits from the right with a weight
      cycling 2..7, then map 11 minus the remainder to a check character. */
  method CalcularDV(num: string) returns (dv: char)
    requires AllDigits(num)
    ensures IsCheckChar(dv)
    ensures (WeightedSum(num) + CheckValue(dv)) % 11 == 0
  {
    var suma: nat := 0;
    var multiplo: nat := 2;
    var i: int := |num| - 1;
    while i >= 0
      invariant -1 <= i < |num|
      invariant suma == PartialSum(num, |num| - 1 - i)
      invariant multiplo == Weight(|num| - 1 - i)
    {
      WeightStep(|num| - 1 - i);
      suma := suma + DigitValue(num[i]) * multiplo;
      multiplo := if multiplo == 7 then 2 else multiplo + 1;
      i := i - 1;
    }
    var d := 11 - suma % 11;
    dv := if d == 11 then '0' else if d == 10 then 'K' else DigitChar(d);
    assert dv == CheckChar(suma);
  }

  /** The number part after the dots are removed: non-empty, all digits. */
  predicate IsRutNumber(clean: string) {
    |clean| > 0 && AllDigits(clean)
  }

  /** Reference meaning of a RUT given its number part and its check part:
      the number without dots is a digit string, and the upper-cased check
      part is one check character completing the weighted sum to a multiple
      of 11. */
  predicate ChecksumHolds(numberPart: string, checkPart: string) {
    var clean := RemoveChar(numberPart, '.');
    var dv := ToUpper(checkPart);
    && IsRutNumber(clean)
    && |dv| == 1
    && IsCheckChar(dv[0])
    && (WeightedSum(clean) + CheckValue(dv[0])) % 11 == 0
  }

  /** `validarRut` of the worker form. A missing value is invalid; otherwise
      the text is split on `-` and only the first two segments are read. */
  function ValidarRut(rut: Text): bool {
    if !TruthyText(rut) then false
    else
      var parts := Split(rut.value, '-');
      if |parts| < 2 || parts[0] == "" || parts[1] == "" then false
      else
        var clean := RemoveChar(parts[0], '.');
        if !IsRutNumber(clean) then false
        else [CheckChar(WeightedSum(clean))] == ToUpper(parts[1])
  }

  /** `validarRut` accepts exactly the texts whose first two `-` segments
      satisfy the modulo-11 checksum. */
  lemma ValidarRutMeaning(rut: string)
    ensures ValidarRut(Some(rut)) <==>
      (var parts := Split(rut, '-'); |parts| >= 2 && ChecksumHolds(parts[0], parts[1]))
  {
    var parts := Split(rut, '-');
    if |parts| >= 2 {
      var clean := RemoveChar(parts[0], '.');
      var dv := ToUpper(parts[1]);
      if IsRutNumber(clean) && |dv| == 1 && IsCheckChar(dv[0])
         && (WeightedSum(clean) + CheckValue(dv[0])) % 11 == 0 {
        CheckCharUnique(WeightedSum(clean), dv[0]);
        assert [dv[0]] == dv;
      }
    }
  }

  /** The weight table of `calcularDigitoVerificador`: twelve entries. */
  const Pesos: seq<nat> := [2, 3, 4, 5, 6, 7, 2, 3, 4, 5, 6, 7]

  /** Within the table, `pesos[i]` is the cycling weight of the other validator. */
  lemma PesosAreWeights()
    ensures forall i :: 0 <= i < |Pesos| ==> Pesos[i] == Weight(i)
  {
  }

  /** `pesos[i]`: the table entry, or `undefined` past the table's end, which
      turns any product with it into NaN. */
  function TableWeight(i: nat): Num {
    if i < |Pesos| then Finite(Pesos[i]) else NaN
  }

  /** The sum `calcularDigitoVerificador` accumulates over the `k` rightmost
      digits: exact while every digit has a weight, NaN from the 13th digit on. */
  function TableSum(ds: string, k: nat): (s: Num)
    requires AllDigits(ds) && k <= |ds|
    ensures s == if k <= |Pesos| then Finite(PartialSum(ds, k)) else NaN
  {
    if k == 0 then Finite(0)
    else
      var before := TableSum(ds, k - 1);
      PesosAreWeights();
      Add(before, Mul(Finite(DigitValue(ds[|ds| - k])), TableWeight(k - 1)))
  }

  /** The remainder-to-character mapping of `calcularDigitoVerificador`,
      followed by the `.toString().toUpperCase()` its caller applies: `K` for
      remainder 1, `0` for remainder 0, `11 - resto` otherwise, and `NAN` for
      a NaN sum. */
  function CheckText(sum: Num): string {
    match sum
    case Finite(s) =>
      var resto := s % 11;
      if resto == 1 then "K"
      else if resto == 0 then "0"
      else NatToString(11 - resto)
    case _ => "NAN"
  }

  /** On a finite sum, both front-end mappings give the same character. */
  lemma CheckTextAgrees(sum: nat)
    ensures CheckText(Finite(sum)) == [CheckChar(sum)]
  {
    var resto := sum % 11;
    if resto > 1 {
      assert 11 - resto < 10;
      assert NatToString(11 - resto) == [DigitChar(11 - resto)];
    }
  }

  /** `validarRutCompleto` as written: exactly two `-` segments, the number
      without dots all digits, and the upper-cased check part equal to the
      upper-cased result of `calcularDigitoVerificador`. */
  function ValidarRutCompletoAsWritten(rut: Text): bool {
    if !TruthyText(rut) then false
    else
      var parts := Split(rut.value, '-');
      if |parts| != 2 then false
      else
        var numero := RemoveChar(parts[0], '.');
        var dvIngresado := ToUpper(parts[1]);
        if !IsRutNumber(numero) then false
        else CheckText(TableSum(numero, |numero|)) == dvIngresado
  }

  /** `validarRutCompleto` with the weights cycling past the twelfth digit, as
      `validarRut` does. */
  function ValidarRutCompleto(rut: Text): bool {
    if !TruthyText(rut) then false
    else
      var parts := Split(rut.value, '-');
      if |parts| != 2 then false
      else
        var numero := RemoveChar(parts[0], '.');
        var dvIngresado := ToUpper(parts[1]);
        if !IsRutNumber(numero) then false
        else CheckText(Finite(WeightedSum(numero))) == dvIngresado
  }

  /** The repaired `validarRutCompleto` accepts exactly the texts of two `-`
      segments that satisfy the modulo-11 checksum. */
  lemma ValidarRutCompletoMeaning(rut: string)
    ensures ValidarRutCompleto(Some(rut)) <==>
      (var parts := Split(rut, '-'); |parts| == 2 && ChecksumHolds(parts[0], parts[1]))
  {
    var parts := Split(rut, '-');
    if |parts| == 2 {
      var clean := RemoveChar(parts[0], '.');
      if IsRutNumber(clean) {
        CheckTextAgrees(WeightedSum(clean));
      }
      ValidarRutMeaning(rut);
    }
  }

  /** On their shared domain (one hyphen) the two repaired validators agree. */
  lemma ValidatorsAgreeOnOneHyphen(rut: string)
    requires |Split(rut, '-')| == 2
    ensures ValidarRutCompleto(Some(rut)) == ValidarRut(Some(rut))
  {
    ValidarRutMeaning(rut);
    ValidarRutCompletoMeaning(rut);
  }

  /** As written, `validarRutCompleto` agrees with `validarRut` on texts of
      one hyphen whose number has at most twelve digits. */
  lemma AsWrittenAgreesUpToTwelveDigits(rut: string)
    requires |Split(rut, '-')| == 2
    requires |RemoveChar(Split(rut, '-')[0], '.')| <= |Pesos|
    ensures ValidarRutCompletoAsWritten(Some(rut)) == ValidarRut(Some(rut))
  {
    ValidatorsAgreeOnOneHyphen(rut);
  }

  /** As written, `validarRutCompleto` accepts any number of thirteen or more
      digits followed by `-nan`, whatever its checksum, while `validarRut`
      rejects it. */
  lemma {:induction false} AsWrittenAcceptsNaN(n: string)
    requires AllDigits(n) && |n| > |Pesos|
    ensures ValidarRutCompletoAsWritten(Some(n + "-nan"))
    ensures !ValidarRut(Some(n + "-nan"))
    ensures !ValidarRutCompleto(Some(n + "-nan"))
  {
    var rut := n + "-nan";
    NaNParts(n);
    ValidarRutMeaning(rut);
    ValidarRutCompletoMeaning(rut);
  }

  /** Past twelve digits, `validarRutCompleto` as written accepts a number
      with exactly one check part, and that part is `nan` in any case: every
      genuine RUT of thirteen or more digits, which `validarRut` accepts, is
      rejected. */
  lemma AsWrittenBeyondTwelve(n: string, d: string)
    requires AllDigits(n) && |n| > |Pesos| && '-' !in d
    ensures ValidarRutCompletoAsWritten(Some(n + "-" + d)) <==> ToUpper(d) == "NAN"
  {
    assert '-' !in n by {
      forall i | 0 <= i < |n| ensures n[i] != '-' {
        assert IsDigit(n[i]);
      }
    }
    SplitOnce(n, d);
    SplitWithoutSeparator(d, '-');
    NoDotsInDigits(n);
  }

  /** `n-nan` splits into the digits and `nan`, and neither changes when
      cleaned. */
  lemma NaNParts(n: string)
    requires AllDigits(n)
    ensures Split(n + "-nan", '-') == [n, "nan"]
    ensures RemoveChar(n, '.') == n && ToUpper("nan") == "NAN"
  {
    assert '-' !in n by {
      forall i | 0 <= i < |n| ensures n[i] != '-' {
        assert IsDigit(n[i]);
      }
    }
    SplitOnce(n, "nan");
    assert n + "-" + "nan" == n + "-nan";
    SplitWithoutSeparator("nan", '-');
    NoDotsInDigits(n);
    assert ToUpper("nan") == "NAN";
  }

  lemma {:induction false} NoDotsInDigits(n: string)
    requires AllDigits(n)
    ensures RemoveChar(n, '.') == n
  {
    if |n| > 0 {
      NoDotsInDigits(n[1..]);
      assert [n[0]] + n[1..] == n;
    }
  }

  /** A concrete text the as-written check accepts with a wrong check part. */
  lemma NaNAcceptedExample()
    ensures ValidarRutCompletoAsWritten(Some("1234567890123-nan"))
    ensures !ValidarRut(Some("1234567890123-nan"))
  {
    var n := "1234567890123";
    assert AllDigits(n);
    assert n + "-nan" == "1234567890123-nan";
    AsWrittenAcceptsNaN(n);
  }

  /** `validarRut` ignores dots anywhere in the number part. */
  lemma DotsIgnored(n: string, d: string)
    requires '-' !in n
    ensures ValidarRut(Some(n + "-" + d)) == ValidarRut(Some(RemoveChar(n, '.') + "-" + d))
  {
    var m := RemoveChar(n, '.');
    SplitOnce(n, d);
    SplitOnce(m, d);
    RemoveCharIdempotent(n, '.');
    ValidarRutMeaning(n + "-" + d);
    ValidarRutMeaning(m + "-" + d);
  }

  /** A number part without hyphens is the first segment of `n-d`. */
  lemma SplitOnce(n: string, d: string)
    requires '-' !in n
    ensures Split(n + "-" + d, '-') == [n] + Split(d, '-')
  {
    assert n + "-" + d == n + ['-'] + d;
    SplitAtFirstSeparator(n, '-', d);
  }

  /** `validarRut` reads only two segments: anything after a second hyphen is
      ignored, so a text that `validarRutCompleto` rejects may pass. */
  lemma ExtraSegmentsIgnored(n: string, d: string, rest: string)
    requires '-' !in n && '-' !in d
    ensures ValidarRut(Some(n + "-" + d + "-" + rest)) == ValidarRut(Some(n + "-" + d))
    ensures !ValidarRutCompleto(Some(n + "-" + d + "-" + rest))
    ensures !ValidarRutCompletoAsWritten(Some(n + "-" + d + "-" + rest))
  {
    var long := n + "-" + d + "-" + rest;
    assert long == n + ['-'] + (d + ['-'] + rest);
    SplitAtFirstSeparator(n, '-', d + ['-'] + rest);
    SplitAtFirstSeparator(d, '-', rest);
    assert n + "-" + d == n + ['-'] + d;
    SplitAtFirstSeparator(n, '-', d);
    SplitWithoutSeparator(d, '-');
    ValidarRutMeaning(long);
    ValidarRutMeaning(n + "-" + d);
  }

  /** A concrete text on which the two validators disagree: `1-9` is a valid
      RUT, and `validarRut` still accepts it with a third segment appended. */
  lemma ThreeSegmentsExample()
    ensures ValidarRut(Some("1-9-0"))
    ensures !ValidarRutCompleto(Some("1-9-0"))
    ensures !ValidarRutCompletoAsWritten(Some("1-9-0"))
  {
    OneNineIsValid();
    assert "1-9-0" == "1" + "-" + "9" + "-" + "0";
    ExtraSegmentsIgnored("1", "9", "0");
  }

  /** `1-9`: the number 1 weighs 2, and 11 - 2 = 9. */
  lemma OneNineIsValid()
    ensures ValidarRut(Some("1" + "-" + "9"))
  {
    assert AllDigits("1");
    assert PartialSum("1", 1) == PartialSum("1", 0) + DigitValue('1') * Weight(0);
    assert WeightedSum("1") == 2;
    assert "1" + "-" + "9" == "1" + ['-'] + "9";
    SplitAtFirstSeparator("1", '-', "9");
    SplitWithoutSeparator("9", '-');
    assert RemoveChar("1", '.') == "1";
    assert ToUpper("9") == "9";
    assert CheckChar(2) == '9';
  }

  /** The check part is compared without regard to case. */
  lemma CheckPartCaseInsensitive(n: string, d1: string, d2: string)
    requires '-' !in n && '-' !in d1 && '-' !in d2
    requires ToUpper(d1) == ToUpper(d2)
    ensures ValidarRut(Some(n + "-" + d1)) == ValidarRut(Some(n + "-" + d2))
    ensures ValidarRutCompleto(Some(n + "-" + d1)) == ValidarRutCompleto(Some(n + "-" + d2))
    ensures ValidarRutCompletoAsWritten(Some(n + "-" + d1)) == ValidarRutCompletoAsWritten(Some(n + "-" + d2))
  {
    assert n + "-" + d1 == n + ['-'] + d1;
    assert n + "-" + d2 == n + ['-'] + d2;
    SplitAtFirstSeparator(n, '-', d1);
    SplitAtFirstSeparator(n, '-', d2);
    SplitWithoutSeparator(d1, '-');
    SplitWithoutSeparator(d2, '-');
    ValidarRutMeaning(n + "-" + d1);
    ValidarRutMeaning(n + "-" + d2);
    ValidarRutCompletoMeaning(n + "-" + d1);
    ValidarRutCompletoMeaning(n + "-" + d2);
  }
}

=== FILE: sql_text.dfy ===
/** SQL statement text with numbered `$n` placeholders, as the controllers
    build it, and the placeholder numbers a reader of that text finds. A text
    is assembled from pieces: literal text and references to parameters. */
module SqlText {
  import opened Strings
  import opened Js

  /** A statement text and the parameter list sent with it. */
  datatype Statement = Statement(text: string, params: seq<Value>)

  /** Length of the run of decimal digits at the start of `s`. */
  function DigitRun(s: string): (k: nat)
    ensures k <= |s|
    ensures AllDigits(s[..k])
    ensures k < |s| ==> !IsDigit(s[k])
  {
    if |s| == 0 || !IsDigit(s[0]) then 0
    else
      var k := 1 + DigitRun(s[1..]);
      assert s[..k] == [s[0]] + s[1..][..k - 1];
      k
  }

  /** The placeholder numbers in `text`, left to right: every `$` directly
      followed by digits, read with its whole digit run, as PostgreSQL reads a
      positional parameter outside quotes and identifiers. */
  function Placeholders(text: string): seq<nat>
    decreases |text|
  {
    if |text| == 0 then []
    else if text[0] == '$' && |text| > 1 && IsDigit(text[1]) then
      var k := DigitRun(text[1..]);
      [DigitsValue(text[1..][..k])] + Placeholders(text[1 + k..])
    else Placeholders(text[1..])
  }

  /** The placeholder for parameter `n`: the source writes `$${n}`. */
  function Token(n: nat): string {
    "$" + NatToString(n)
  }

  /** 1-based numbers `start`, `start + 1`, ... of length `count`. */
  function Numbers(start: nat, count: nat): (r: seq<nat>)
    ensures |r| == count
    ensures forall i :: 0 <= i < count ==> r[i] == start + i
  {
    seq(count, i requires 0 <= i < count => start + i)
  }

  lemma NumbersCons(start: nat, count: nat)
    requires count > 0
    ensures Numbers(start, count) == [start] + Numbers(start + 1, count - 1)
  {
    var a := Numbers(start, count);
    var b := [start] + Numbers(start + 1, count - 1);
    assert |a| == |b|;
    forall i | 0 <= i < count
      ensures a[i] == b[i]
    {
      if i > 0 {
        assert b[i] == Numbers(start + 1, count - 1)[i - 1];
      }
    }
  }

  lemma NumbersSnoc(start: nat, count: nat)
    ensures Numbers(start, count) + [start + count] == Numbers(start, count + 1)
  {
    var a := Numbers(start, count) + [start + count];
    assert forall i :: 0 <= i < count + 1 ==> a[i] == start + i;
  }

  /** Text that cannot start or extend a placeholder when it follows one. */
  predicate StartsClear(s: string) {
    |s| == 0 || !IsDigit(s[0])
  }

  lemma StartsClearConcat(a: string, b: string)
    requires StartsClear(a) && StartsClear(b)
    ensures StartsClear(a + b)
  {
    if |a| > 0 {
      assert (a + b)[0] == a[0];
    } else {
      assert a + b == b;
    }
  }

  /** A literal without `$` contributes no placeholder, whatever follows it. */
  lemma {:induction false} LiteralThen(a: string, b: string)
    requires '$' !in a
    ensures Placeholders(a + b) == Placeholders(b)
  {
    if |a| > 0 {
      assert (a + b)[0] == a[0];
      assert (a + b)[1..] == a[1..] + b;
      LiteralThen(a[1..], b);
    } else {
      assert a + b == b;
    }
  }

  lemma NoDollarNoPlaceholders(a: string)
    requires '$' !in a
    ensures Placeholders(a) == []
  {
    LiteralThen(a, "");
    assert a + "" == a;
  }

  /** The digit run of `a + b` stops inside `a` unless `a` is all digits. */
  lemma {:induction false} DigitRunAppend(a: string, b: string)
    requires AllDigits(a)
    requires StartsClear(b)
    ensures DigitRun(a + b) == |a|
  {
    if |a| > 0 {
      assert (a + b)[1..] == a[1..] + b;
      DigitRunAppend(a[1..], b);
    } else {
      assert a + b == b;
    }
  }

  /** A token followed by text that does not continue its digits is read as
      exactly its own number. */
  lemma TokenThen(n: nat, b: string)
    requires StartsClear(b)
    ensures Placeholders(Token(n) + b) == [n] + Placeholders(b)
  {
    var d := NatToString(n);
    var s := Token(n) + b;
    assert s[1..] == d + b;
    assert IsDigit(s[1]);
    DigitRunAppend(d, b);
    assert s[1..][..|d|] == d;
    assert s[1 + |d|..] == b;
  }

  /** Literal text that holds no `$` and cannot extend a preceding placeholder. */
  predicate SafeText(s: string) {
    '$' !in s && StartsClear(s)
  }

  /** A piece of statement text: a literal or a reference to a parameter. */
  datatype Piece = Lit(s: string) | Param(n: nat)

  function RenderPiece(p: Piece): string {
    match p
    case Lit(s) => s
    case Param(n) => Token(n)
  }

  function Render(ps: seq<Piece>): string
    decreases |ps|
  {
    if |ps| == 0 then "" else RenderPiece(ps[0]) + Render(ps[1..])
  }

  /** The parameter numbers a piece list refers to, left to right. */
  function ParamsOf(ps: seq<Piece>): seq<nat>
    decreases |ps|
  {
    if |ps| == 0 then []
    else (if ps[0].Lit? then [] else [ps[0].n]) + ParamsOf(ps[1..])
  }

  predicate SafeLiterals(ps: seq<Piece>) {
    forall i :: 0 <= i < |ps| && ps[i].Lit? ==> SafeText(ps[i].s)
  }

  lemma SafeLiteralsTail(ps: seq<Piece>)
    requires SafeLiterals(ps) && |ps| > 0
    ensures SafeLiterals(ps[1..])
    ensures ps[0].Lit? ==> SafeText(ps[0].s)
  {
    forall i | 0 <= i < |ps| - 1 && ps[1..][i].Lit?
      ensures SafeText(ps[1..][i].s)
    {
      assert ps[1..][i] == ps[i + 1];
    }
  }

  lemma SafeLiteralsAppend(a: seq<Piece>, b: seq<Piece>)
    requires SafeLiterals(a) && SafeLiterals(b)
    ensures SafeLiterals(a + b)
  {
    forall i | 0 <= i < |a + b| && (a + b)[i].Lit?
      ensures SafeText((a + b)[i].s)
    {
      if i >= |a| {
        assert (a + b)[i] == b[i - |a|];
      }
    }
  }

  lemma {:induction false} RenderAppend(a: seq<Piece>, b: seq<Piece>)
    ensures Render(a + b) == Render(a) + Render(b)
    ensures ParamsOf(a + b) == ParamsOf(a) + ParamsOf(b)
    decreases |a|
  {
    if |a| > 0 {
      assert (a + b)[1..] == a[1..] + b;
      RenderAppend(a[1..], b);
    } else {
      assert a + b == b;
    }
  }

  /** What a piece list renders to begins with its first piece. */
  lemma RenderCons(ps: seq<Piece>, tail: string)
    requires |ps| > 0
    ensures Render(ps) + tail == RenderPiece(ps[0]) + (Render(ps[1..]) + tail)
  {
  }

  lemma PieceStartsClear(p: Piece)
    requires p.Lit? ==> SafeText(p.s)
    ensures StartsClear(RenderPiece(p))
  {
    if p.Param? {
      assert RenderPiece(p)[0] == '$';
    }
  }

  /** Rendered text never starts with a digit. */
  lemma {:induction false} RenderStartsClear(ps: seq<Piece>, tail: string)
    requires SafeLiterals(ps)
    requires StartsClear(tail)
    ensures StartsClear(Render(ps) + tail)
    decreases |ps|
  {
    if |ps| > 0 {
      SafeLiteralsTail(ps);
      RenderStartsClear(ps[1..], tail);
      RenderCons(ps, tail);
      PieceStartsClear(ps[0]);
      StartsClearConcat(RenderPiece(ps[0]), Render(ps[1..]) + tail);
    } else {
      assert Render(ps) + tail == tail;
    }
  }

  /** A rendered piece list, followed by text that cannot extend a
      placeholder, is read as exactly the parameters it refers to. */
  lemma {:induction false} RenderPlaceholders(ps: seq<Piece>, tail: string)
    requires SafeLiterals(ps)
    requires StartsClear(tail)
    ensures Placeholders(Render(ps) + tail) == ParamsOf(ps) + Placeholders(tail)
    decreases |ps|
  {
    if |ps| > 0 {
      SafeLiteralsTail(ps);
      RenderPlaceholders(ps[1..], tail);
      RenderStartsClear(ps[1..], tail);
      RenderStep(ps, tail);
    } else {
      assert Render(ps) + tail == tail;
    }
  }

  /** One step of `RenderPlaceholders`: the first piece, then the rest. */
  lemma RenderStep(ps: seq<Piece>, tail: string)
    requires |ps| > 0
    requires ps[0].Lit? ==> '$' !in ps[0].s
    requires StartsClear(Render(ps[1..]) + tail)
    requires Placeholders(Render(ps[1..]) + tail) == ParamsOf(ps[1..]) + Placeholders(tail)
    ensures Placeholders(Render(ps) + tail) == ParamsOf(ps) + Placeholders(tail)
  {
    var rest := Render(ps[1..]) + tail;
    var head := RenderPiece(ps[0]);
    assert Render(ps) + tail == head + rest by {
      RenderCons(ps, tail);
    }
    var first := if ps[0].Lit? then [] else [ps[0].n];
    assert ParamsOf(ps) == first + ParamsOf(ps[1..]);
    assert Placeholders(head + rest) == first + Placeholders(rest) by {
      if ps[0].Lit? {
        LiteralThen(head, rest);
      } else {
        TokenThen(ps[0].n, rest);
      }
    }
    Combine(Render(ps) + tail, head, rest, first, ParamsOf(ps[1..]), Placeholders(tail));
  }

  lemma Combine(whole: string, head: string, rest: string, first: seq<nat>, middle: seq<nat>, last: seq<nat>)
    requires whole == head + rest
    requires Placeholders(head + rest) == first + Placeholders(rest)
    requires Placeholders(rest) == middle + last
    ensures Placeholders(whole) == (first + middle) + last
  {
  }

  lemma SafeTextConcat(a: string, b: string)
    requires SafeText(a) && SafeText(b)
    ensures SafeText(a + b)
  {
    StartsClearConcat(a, b);
    assert forall c :: c in a + b ==> c in a || c in b;
  }

  /** `$start`, `$start + 1`, ... of length `count`, as the source writes them. */
  function Tokens(start: nat, count: nat): (r: seq<string>)
    ensures |r| == count
    ensures forall i :: 0 <= i < count ==> r[i] == Token(start + i)
  {
    seq(count, i requires 0 <= i < count => Token(start + i))
  }

  lemma TokensTail(start: nat, count: nat)
    requires count > 0
    ensures Tokens(start, count)[0] == Token(start)
    ensures Tokens(start, count)[1..] == Tokens(start + 1, count - 1)
  {
    var ts := Tokens(start, count);
    forall i | 0 <= i < count - 1
      ensures ts[1..][i] == Tokens(start + 1, count - 1)[i]
    {
      assert start + 1 + i == start + (i + 1);
    }
  }

  /** The pieces of `Tokens(start, count)` joined by `", "`. */
  function ParamList(start: nat, count: nat): seq<Piece>
    decreases count
  {
    if count == 0 then []
    else if count == 1 then [Param(start)]
    else [Param(start), Lit(", ")] + ParamList(start + 1, count - 1)
  }

  /** A parameter followed by one literal. */
  lemma ParamThen(n: nat, sep: string)
    requires SafeText(sep)
    ensures var ps := [Param(n), Lit(sep)];
      SafeLiterals(ps) && ParamsOf(ps) == [n] && Render(ps) == Token(n) + sep
  {
    var ps := [Param(n), Lit(sep)];
    assert ps[1..] == [Lit(sep)];
    assert ParamsOf([Lit(sep)]) == [];
    assert Render([Lit(sep)]) == sep;
  }

  /** A single literal. */
  lemma LitAlone(a: string)
    requires SafeText(a)
    ensures SafeLiterals([Lit(a)]) && ParamsOf([Lit(a)]) == [] && Render([Lit(a)]) == a
  {
    assert Render([Lit(a)]) == a + Render([]);
  }

  /** A literal followed by a parameter. */
  lemma LitThenParam(a: string, n: nat)
    requires SafeText(a)
    ensures var ps := [Lit(a), Param(n)];
      SafeLiterals(ps) && ParamsOf(ps) == [n] && Render(ps) == a + Token(n)
  {
    var ps := [Lit(a), Param(n)];
    assert ps[1..] == [Param(n)];
    assert ParamsOf([Param(n)]) == [n] + ParamsOf([]);
    assert Render([Param(n)]) == Token(n) + Render([]);
  }

  /** Concatenated piece lists: safety, parameters and text all add up. */
  lemma PiecesAppend(a: seq<Piece>, b: seq<Piece>)
    requires SafeLiterals(a) && SafeLiterals(b)
    ensures SafeLiterals(a + b)
    ensures ParamsOf(a + b) == ParamsOf(a) + ParamsOf(b)
    ensures Render(a + b) == Render(a) + Render(b)
  {
    SafeLiteralsAppend(a, b);
    RenderAppend(a, b);
  }

  /** A comma-separated placeholder list refers to `start`, ... in order,
      and renders as the joined tokens. */
  lemma ParamListFacts(start: nat, count: nat)
    ensures SafeLiterals(ParamList(start, count))
    ensures ParamsOf(ParamList(start, count)) == Numbers(start, count)
    ensures Render(ParamList(start, count)) == Join(Tokens(start, count), ", ")
  {
    ParamListSafe(start, count);
    ParamListParams(start, count);
    ParamListRender(start, count);
  }

  lemma CommaSafe()
    ensures SafeText(", ")
  {
    assert SafeText(", ");
  }

  lemma {:induction false} ParamListSafe(start: nat, count: nat)
    ensures SafeLiterals(ParamList(start, count))
    decreases count
  {
    if count > 1 {
      ParamListSafe(start + 1, count - 1);
      CommaSafe();
      ParamThen(start, ", ");
      SafeLiteralsAppend([Param(start), Lit(", ")], ParamList(start + 1, count - 1));
    }
  }

  lemma {:induction false} ParamListParams(start: nat, count: nat)
    ensures ParamsOf(ParamList(start, count)) == Numbers(start, count)
    decreases count
  {
    if count == 1 {
      assert Numbers(start, 1) == [start];
    } else if count > 1 {
      var head := [Param(start), Lit(", ")];
      var rest := ParamList(start + 1, count - 1);
      ParamListParams(start + 1, count - 1);
      CommaSafe();
      ParamThen(start, ", ");
      RenderAppend(head, rest);
      NumbersCons(start, count);
    }
  }

  lemma {:induction false} ParamListRender(start: nat, count: nat)
    ensures Render(ParamList(start, count)) == Join(Tokens(start, count), ", ")
    decreases count
  {
    if count > 1 {
      var head := [Param(start), Lit(", ")];
      var rest := ParamList(start + 1, count - 1);
      ParamListRender(start + 1, count - 1);
      CommaSafe();
      ParamThen(start, ", ");
      RenderAppend(head, rest);
      TokensTail(start, count);
      JoinCons(Tokens(start, count), ", ");
    }
  }

  /** A rendered piece list is read as exactly the parameters it refers to. */
  lemma RenderedParams(ps: seq<Piece>)
    requires SafeLiterals(ps)
    ensures Placeholders(Render(ps)) == ParamsOf(ps)
  {
    RenderPlaceholders(ps, "");
    assert Render(ps) + "" == Render(ps);
    NoDollarNoPlaceholders("");
  }

  /** A statement text made of three safe piece lists is read as their
      parameters, in order. */
  lemma RenderedThree(a: seq<Piece>, b: seq<Piece>, c: seq<Piece>, text: string, params: seq<nat>)
    requires SafeLiterals(a) && SafeLiterals(b) && SafeLiterals(c)
    requires text == Render(a) + Render(b) + Render(c)
    requires params == ParamsOf(a) + ParamsOf(b) + ParamsOf(c)
    ensures Placeholders(text) == params
  {
    PiecesAppend(a, b);
    PiecesAppend(a + b, c);
    RenderedParams(a + b + c);
  }

  /** A join of `$`-free texts is `$`-free. */
  lemma {:induction false} JoinWithoutDollar(parts: seq<string>, sep: string)
    requires '$' !in sep
    requires forall i :: 0 <= i < |parts| ==> '$' !in parts[i]
    ensures '$' !in Join(parts, sep)
    decreases |parts|
  {
    if |parts| > 1 {
      JoinWithoutDollar(parts[1..], sep);
    }
  }

  /** Every placeholder of a statement names one of its parameters, and every
      parameter is named by some placeholder. */
  predicate BindsExactly(st: Statement) {
    && (forall k :: k in Placeholders(st.text) ==> 1 <= k <= |st.params|)
    && (forall k :: 1 <= k <= |st.params| ==> k in Placeholders(st.text))
  }

  /** Stronger: the placeholders are `$1`, `$2`, ... `$n` in order, once each,
      for the `n` parameters. */
  predicate NumberedInOrder(st: Statement) {
    Placeholders(st.text) == Numbers(1, |st.params|)
  }

  lemma NumberedInOrderBinds(st: Statement)
    requires NumberedInOrder(st)
    ensures BindsExactly(st)
  {
    var ps := Placeholders(st.text);
    forall k
      ensures k in ps <==> 1 <= k <= |st.params|
    {
      if 1 <= k <= |st.params| {
        assert ps[k - 1] == k;
      }
    }
  }
}

=== FILE: strings.dfy ===
/** Character and string helpers shared by the front-end validators and the
    back-end query builders: decimal digits, number formatting, `split`/`join`
    on a separator, removal of one character and ASCII upper-casing. */
module Strings {

  predicate IsDigit(c: char) {
    '0' <= c <= '9'
  }

  function DigitValue(c: char): (v: nat)
    requires IsDigit(c)
    ensures v < 10
  {
    c as int - '0' as int
  }

  function DigitChar(v: nat): (c: char)
    requires v < 10
    ensures IsDigit(c) && DigitValue(c) == v
  {
    ('0' as int + v) as char
  }

  /** The pattern `^\d+$` without the anchors' emptiness check. */
  predicate AllDigits(s: string) {
    forall i :: 0 <= i < |s| ==> IsDigit(s[i])
  }

  /** Value of a decimal digit string, most significant digit first. */
  function DigitsValue(s: string): nat
    requires AllDigits(s)
  {
    if |s| == 0 then 0 else DigitsValue(s[..|s| - 1]) * 10 + DigitValue(s[|s| - 1])
  }

  /** Decimal rendering of a natural number, as JavaScript's `String(n)`
      writes a non-negative safe integer. */
  function NatToString(n: nat): (s: string)
    ensures |s| >= 1 && AllDigits(s)
    ensures DigitsValue(s) == n
    ensures |s| > 1 ==> s[0] != '0'
  {
    if n < 10 then [DigitChar(n)]
    else
      var prefix := NatToString(n / 10);
      var s := prefix + [DigitChar(n % 10)];
      assert s[..|s| - 1] == prefix;
      s
  }

  /** `parts.join(sep)`. */
  function Join(parts: seq<string>, sep: string): string {
    if |parts| == 0 then ""
    else if |parts| == 1 then parts[0]
    else parts[0] + sep + Join(parts[1..], sep)
  }

  /** Joining two or more parts puts the separator after the first. */
  lemma JoinCons(parts: seq<string>, sep: string)
    requires |parts| > 1
    ensures Join(parts, sep) == parts[0] + sep + Join(parts[1..], sep)
  {
  }

  /** `s.split(sep)` for a one-character separator: every segment between
      separators, including empty ones, in order. */
  function Split(s: string, sep: char): (parts: seq<string>)
    ensures |parts| >= 1
    ensures forall i :: 0 <= i < |parts| ==> sep !in parts[i]
    ensures Join(parts, [sep]) == s
  {
    if |s| == 0 then [""]
    else if s[0] == sep then
      var rest := Split(s[1..], sep);
      assert s == [sep] + s[1..];
      [""] + rest
    else
      var rest := Split(s[1..], sep);
      var parts := [[s[0]] + rest[0]] + rest[1..];
      assert parts[1..] == rest[1..];
      assert s == [s[0]] + s[1..];
      parts
  }

  /** A segment free of the separator splits to itself. */
  lemma {:induction false} SplitWithoutSeparator(s: string, sep: char)
    requires sep !in s
    ensures Split(s, sep) == [s]
  {
    if |s| > 0 {
      SplitWithoutSeparator(s[1..], sep);
      assert [s[0]] + s[1..] == s;
    }
  }

  /** The first segment ends at the first separator; the rest splits on its own. */
  lemma {:induction false} SplitAtFirstSeparator(a: string, sep: char, b: string)
    requires sep !in a
    ensures Split(a + [sep] + b, sep) == [a] + Split(b, sep)
  {
    var s := a + [sep] + b;
    if |a| == 0 {
      assert s == [sep] + b;
      assert s[1..] == b;
    } else {
      assert s[1..] == a[1..] + [sep] + b;
      SplitAtFirstSeparator(a[1..], sep, b);
      assert [a[0]] + a[1..] == a;
    }
  }

  /** `s.replace(/c/g, "")`: `s` with every occurrence of `c` dropped. */
  function RemoveChar(s: string, c: char): (r: string)
    ensures |r| <= |s|
    ensures forall x :: x in r <==> x in s && x != c
    ensures forall x :: x != c ==> multiset(r)[x] == multiset(s)[x]
  {
    if |s| == 0 then ""
    else
      assert s == [s[0]] + s[1..];
      if s[0] == c then RemoveChar(s[1..], c)
      else
        var r := [s[0]] + RemoveChar(s[1..], c);
        assert forall x :: x in s <==> x == s[0] || x in s[1..];
        r
  }

  /** Removal distributes over concatenation. */
  lemma {:induction false} RemoveCharAppend(a: string, b: string, c: char)
    ensures RemoveChar(a + b, c) == RemoveChar(a, c) + RemoveChar(b, c)
  {
    if |a| > 0 {
      assert (a + b)[1..] == a[1..] + b;
      RemoveCharAppend(a[1..], b, c);
    } else {
      assert a + b == b;
    }
  }

  /** The kept characters keep their order: whatever surrounds a character,
      it stays between what is kept of its left and of its right. */
  lemma RemoveCharKeepsOrder(a: string, x: char, b: string, c: char)
    ensures RemoveChar(a + [x] + b, c) == RemoveChar(a, c) + (if x == c then [] else [x]) + RemoveChar(b, c)
  {
    RemoveCharAppend(a + [x], b, c);
    RemoveCharAppend(a, [x], c);
    assert [x][1..] == [];
  }

  /** Removing a character twice is removing it once. */
  lemma {:induction false} RemoveCharIdempotent(s: string, c: char)
    ensures RemoveChar(RemoveChar(s, c), c) == RemoveChar(s, c)
  {
    if |s| > 0 {
      RemoveCharIdempotent(s[1..], c);
    }
  }

  predicate IsLowerAscii(c: char) {
    'a' <= c <= 'z'
  }

  function UpperChar(c: char): (u: char)
    ensures !IsLowerAscii(u)
    ensures u != c <==> IsLowerAscii(c)
  {
    if IsLowerAscii(c) then (c as int - 32) as char else c
  }

  /** `s.toUpperCase()` restricted to the ASCII letters. */
  function ToUpper(s: string): (r: string)
    ensures |r| == |s|
    ensures forall i :: 0 <= i < |s| ==> !IsLowerAscii(r[i])
    ensures forall i :: 0 <= i < |s| && !IsLowerAscii(s[i]) ==> r[i] == s[i]
  {
    seq(|s|, i requires 0 <= i < |s| => UpperChar(s[i]))
  }
}

=== FILE: worker_form.dfy ===
/** The worker create/edit form: its validation schema (required fields, the
    Chilean mobile-phone pattern, the RUT check, and the rules that depend on
    the contract type and the bonus type) and the normalisation of the
    validated values into the request payload. */
module WorkerForm {
  import opened Strings
  import opened Js
  import Rut

  /** A positive denominator. */
  type Pos = d: int | d >= 1 witness 1

  /** A finite number a number input can hold, as the fraction `num / den`:
      the inputs accept decimals such as `0.5`. */
  datatype Fraction = Fraction(num: int, den: Pos)

  /** A numeric input as the schema sees it after its cast: blank (empty
      text, `null` or absent), a number, or a value that is not a number. */
  datatype NumberInput = Blank | Given(x: Fraction) | NotANumber

  /** The form values handed to the schema. */
  datatype Form = Form(
    rut: Text,
    nombre: Text,
    apellidos: Text,
    correo: Text,
    telefono: Text,
    fechaNacimiento: Text,
    estadoCivil: Text,
    hijos: NumberInput,
    direccion: Text,
    casaBloqueDepto: Text,
    comunaId: Text,
    ciudad: Text,
    departamentoId: Text,
    cargoId: Text,
    tipoContrato: Text,
    cantidadDuracion: NumberInput,
    unidadDuracion: Text,
    jornadaLaboralId: Text,
    gratificacionTipo: Text,
    gratificacionMonto: NumberInput
  )

  /** The fields the schema can report an error on. */
  datatype Field =
    | RutField | NombreField | ApellidosField | CorreoField | TelefonoField
    | FechaNacimientoField | EstadoCivilField | HijosField | DireccionField
    | ComunaIdField | CiudadField | DepartamentoIdField | CargoIdField
    | TipoContratoField | CantidadDuracionField | UnidadDuracionField
    | JornadaLaboralIdField | GratificacionTipoField | GratificacionMontoField

  const Indefinido := "Indefinido"
  const Fija := "Fija"

  predicate IsIndefinido(f: Form) {
    f.tipoContrato == Some(Indefinido)
  }

  predicate IsFija(f: Form) {
    f.gratificacionTipo == Some(Fija)
  }

  /** A text `required()` accepts: present and non-empty. */
  predicate Required(t: Text) {
    TruthyText(t)
  }

  /** `required().min(3)`. */
  predicate RequiredMin3(t: Text) {
    t.Some? && |t.value| >= 3
  }

  /** `positive()`: a number above zero. */
  predicate Positive(x: NumberInput) {
    x.Given? && x.x.num > 0
  }

  // ---- The phone pattern `^(\+?56)?\s?9\s?\d{4}\s?\d{4}$` ----

  function DropCountryCode(s: string): string {
    if |s| >= 3 && s[..3] == "+56" then s[3..]
    else if |s| >= 2 && s[..2] == "56" then s[2..]
    else s
  }

  function DropOneSpace(s: string): string {
    if |s| > 0 && IsWhiteSpace(s[0]) then s[1..] else s
  }

  /** A left-to-right matcher for the phone pattern. Each optional part of the
      pattern is taken whenever it is present, which is the only choice that
      can lead to a match: what follows it can never start the same way. */
  predicate PhoneMatches(s: string) {
    MatchFromNine(DropOneSpace(DropCountryCode(s)))
  }

  /** `9\s?\d{4}\s?\d{4}`. */
  predicate MatchFromNine(a: string) {
    |a| > 0 && a[0] == '9' && MatchFirstGroup(DropOneSpace(a[1..]))
  }

  /** `\d{4}\s?\d{4}`. */
  predicate MatchFirstGroup(b: string) {
    |b| >= 4 && AllDigits(b[..4]) && FourDigits(DropOneSpace(b[4..]))
  }

  predicate IsCountryCode(cc: string) {
    cc == "" || cc == "+56" || cc == "56"
  }

  /** `\s?`: nothing or one white-space character. */
  predicate OptionalSpace(w: string) {
    w == "" || (|w| == 1 && IsWhiteSpace(w[0]))
  }

  predicate FourDigits(d: string) {
    |d| == 4 && AllDigits(d)
  }

  /** The phone pattern read declaratively: some country code, optional
      spaces, the mobile prefix 9, and two groups of four digits. */
  ghost predicate PhoneShape(s: string) {
    exists cc, w1, w2, w3, d1, d2 ::
      && IsCountryCode(cc) && OptionalSpace(w1) && OptionalSpace(w2) && OptionalSpace(w3)
      && FourDigits(d1) && FourDigits(d2)
      && s == cc + w1 + "9" + w2 + d1 + w3 + d2
  }

  lemma DropOneSpaceOf(w: string, rest: string)
    requires OptionalSpace(w)
    requires |rest| > 0 && !IsWhiteSpace(rest[0])
    ensures DropOneSpace(w + rest) == rest
  {
    if w == "" {
      assert w + rest == rest;
    } else {
      assert (w + rest)[1..] == rest;
    }
  }

  /** What `DropOneSpace` removed is an optional space. */
  lemma DropOneSpaceSplit(s: string)
    ensures |DropOneSpace(s)| <= |s|
    ensures var w := s[..|s| - |DropOneSpace(s)|];
      OptionalSpace(w) && s == w + DropOneSpace(s)
  {
    if |s| > 0 && IsWhiteSpace(s[0]) {
      assert s == s[..1] + s[1..];
    } else {
      assert s[..0] == "";
    }
  }

  lemma DropCountryCodeOf(cc: string, rest: string)
    requires IsCountryCode(cc)
    requires |rest| > 0 && (IsWhiteSpace(rest[0]) || rest[0] == '9')
    ensures DropCountryCode(cc + rest) == rest
  {
    var s := cc + rest;
    if cc == "+56" {
      assert s[..3] == cc && s[3..] == rest;
    } else if cc == "56" {
      assert s[0] == '5';
      assert s[..2] == cc && s[2..] == rest;
    } else {
      assert s == rest;
    }
  }

  /** What `DropCountryCode` removed is a country code. */
  lemma DropCountryCodeSplit(s: string)
    ensures |DropCountryCode(s)| <= |s|
    ensures var cc := s[..|s| - |DropCountryCode(s)|];
      IsCountryCode(cc) && s == cc + DropCountryCode(s)
  {
    if |s| >= 3 && s[..3] == "+56" {
      assert s == s[..3] + s[3..];
    } else if |s| >= 2 && s[..2] == "56" {
      assert s == s[..2] + s[2..];
    } else {
      assert s[..0] == "";
    }
  }

  lemma FirstGroupOf(d1: string, w3: string, d2: string)
    requires FourDigits(d1) && OptionalSpace(w3) && FourDigits(d2)
    ensures MatchFirstGroup(d1 + (w3 + d2))
  {
    var b := d1 + (w3 + d2);
    assert b[..4] == d1;
    assert b[4..] == w3 + d2;
    assert IsDigit(d2[0]);
    DropOneSpaceOf(w3, d2);
  }

  lemma FirstGroupSplit(b: string)
    requires MatchFirstGroup(b)
    ensures exists w3, d2 :: OptionalSpace(w3) && FourDigits(d2) && b == b[..4] + (w3 + d2)
  {
    DropOneSpaceSplit(b[4..]);
    var w3 := b[4..][..|b| - 4 - |DropOneSpace(b[4..])|];
    assert b == b[..4] + b[4..];
    assert b == b[..4] + (w3 + DropOneSpace(b[4..]));
  }

  lemma FromNineOf(w2: string, d1: string, w3: string, d2: string)
    requires OptionalSpace(w2) && FourDigits(d1) && OptionalSpace(w3) && FourDigits(d2)
    ensures MatchFromNine("9" + (w2 + (d1 + (w3 + d2))))
  {
    var a := "9" + (w2 + (d1 + (w3 + d2)));
    assert a[1..] == w2 + (d1 + (w3 + d2));
    assert IsDigit(d1[0]);
    DropOneSpaceOf(w2, d1 + (w3 + d2));
    FirstGroupOf(d1, w3, d2);
  }

  /** `9\s?\d{4}\s?\d{4}` read declaratively. */
  ghost predicate NineShape(a: string) {
    exists w2, d1, w3, d2 ::
      && OptionalSpace(w2) && FourDigits(d1) && OptionalSpace(w3) && FourDigits(d2)
      && a == "9" + (w2 + (d1 + (w3 + d2)))
  }

  lemma FromNineSplit(a: string)
    requires MatchFromNine(a)
    ensures NineShape(a)
  {
    var rest := a[1..];
    HeadThenRest(a);
    DropOneSpaceSplit(rest);
    var b := DropOneSpace(rest);
    var w2 := rest[..|rest| - |b|];
    FirstGroupSplit(b);
    NineOfParts(a, rest, w2, b);
  }

  /** `9\s?\d{4}\s?\d{4}` from its stages: the 9, an optional space, and
      a first group followed by the rest. */
  lemma NineOfParts(a: string, rest: string, w2: string, b: string)
    requires a == ['9'] + rest && rest == w2 + b && OptionalSpace(w2)
    requires |b| >= 4 && AllDigits(b[..4])
    requires exists w3, d2 :: OptionalSpace(w3) && FourDigits(d2) && b == b[..4] + (w3 + d2)
    ensures NineShape(a)
  {
    var w3, d2 :| OptionalSpace(w3) && FourDigits(d2) && b == b[..4] + (w3 + d2);
    var d1 := b[..4];
    assert FourDigits(d1);
    assert a == "9" + (w2 + (d1 + (w3 + d2)));
  }

  lemma HeadThenRest<T>(a: seq<T>)
    requires |a| > 0
    ensures a == [a[0]] + a[1..]
  {
  }

  /** Every text the matcher accepts has the declarative phone shape. */
  lemma PhoneMatchesHasShape(s: string)
    requires PhoneMatches(s)
    ensures PhoneShape(s)
  {
    DropCountryCodeSplit(s);
    var r := DropCountryCode(s);
    var cc := s[..|s| - |r|];
    DropOneSpaceSplit(r);
    var a := DropOneSpace(r);
    var w1 := r[..|r| - |a|];
    FromNineSplit(a);
    ShapeOfParts(s, cc, r, w1, a);
  }

  /** The phone shape from its three stages: a country code, an optional
      space, and a text of the shape `9\s?\d{4}\s?\d{4}`. */
  lemma ShapeOfParts(s: string, cc: string, r: string, w1: string, a: string)
    requires IsCountryCode(cc) && OptionalSpace(w1)
    requires s == cc + r && r == w1 + a
    requires NineShape(a)
    ensures PhoneShape(s)
  {
    var w2, d1, w3, d2 :|
      && OptionalSpace(w2) && FourDigits(d1) && OptionalSpace(w3) && FourDigits(d2)
      && a == "9" + (w2 + (d1 + (w3 + d2)));
    ShapeWitness(s, cc, w1, w2, w3, d1, d2);
  }

  lemma ShapeWitness(s: string, cc: string, w1: string, w2: string, w3: string, d1: string, d2: string)
    requires IsCountryCode(cc) && OptionalSpace(w1) && OptionalSpace(w2) && OptionalSpace(w3)
    requires FourDigits(d1) && FourDigits(d2)
    requires s == cc + (w1 + ("9" + (w2 + (d1 + (w3 + d2)))))
    ensures PhoneShape(s)
  {
    RightToLeft(cc, w1, "9", w2, d1, w3, d2);
    assert IsCountryCode(cc) && OptionalSpace(w1) && OptionalSpace(w2) && OptionalSpace(w3)
      && FourDigits(d1) && FourDigits(d2)
      && s == cc + w1 + "9" + w2 + d1 + w3 + d2;
  }

  /** Concatenation regrouped from the right to the left. */
  lemma RightToLeft<T>(a: seq<T>, b: seq<T>, c: seq<T>, d: seq<T>, e: seq<T>, f: seq<T>, g: seq<T>)
    ensures a + (b + (c + (d + (e + (f + g))))) == a + b + c + d + e + f + g
  {
  }

  /** Every text of the declarative phone shape is accepted by the matcher. */
  lemma ShapeIsMatched(cc: string, w1: string, w2: string, w3: string, d1: string, d2: string)
    requires IsCountryCode(cc) && OptionalSpace(w1) && OptionalSpace(w2) && OptionalSpace(w3)
    requires FourDigits(d1) && FourDigits(d2)
    ensures PhoneMatches(cc + w1 + "9" + w2 + d1 + w3 + d2)
  {
    var a := "9" + (w2 + (d1 + (w3 + d2)));
    RightToLeft(cc, w1, "9", w2, d1, w3, d2);
    DropCountryCodeOf(cc, w1 + a);
    DropOneSpaceOf(w1, a);
    FromNineOf(w2, d1, w3, d2);
  }

  /** The matcher accepts exactly the texts of the declarative phone shape. */
  lemma PhoneMatchesMeaning(s: string)
    ensures PhoneMatches(s) <==> PhoneShape(s)
  {
    if PhoneMatches(s) {
      PhoneMatchesHasShape(s);
    }
    if PhoneShape(s) {
      var cc, w1, w2, w3, d1, d2 :|
        && IsCountryCode(cc) && OptionalSpace(w1) && OptionalSpace(w2) && OptionalSpace(w3)
        && FourDigits(d1) && FourDigits(d2)
        && s == cc + w1 + "9" + w2 + d1 + w3 + d2;
      ShapeIsMatched(cc, w1, w2, w3, d1, d2);
    }
  }

  /** The phone is optional: empty or missing passes, otherwise it must match. */
  predicate PhoneOk(t: Text) {
    t.None? || t.value == "" || PhoneMatches(t.value)
  }

  const AllFields: set<Field> := {
    RutField, NombreField, ApellidosField, CorreoField, TelefonoField,
    FechaNacimientoField, EstadoCivilField, HijosField, DireccionField,
    ComunaIdField, CiudadField, DepartamentoIdField, CargoIdField,
    TipoContratoField, CantidadDuracionField, UnidadDuracionField,
    JornadaLaboralIdField, GratificacionTipoField, GratificacionMontoField
  }

  /** The schema rule for one field. `isEmail` stands for the schema's
      e-mail format check. The duration fields are only required, and the
      length only checked to be positive, when the contract is not open-ended;
      the bonus amount likewise only when the bonus is fixed. Otherwise a
      numeric field only fails when its text is not a number. */
  predicate FieldOk(f: Form, isEmail: string -> bool, fld: Field) {
    match fld
    case RutField => Rut.ValidarRut(f.rut)
    case NombreField => RequiredMin3(f.nombre)
    case ApellidosField => RequiredMin3(f.apellidos)
    case CorreoField => Required(f.correo) && isEmail(f.correo.value)
    case TelefonoField => PhoneOk(f.telefono)
    case FechaNacimientoField => Required(f.fechaNacimiento)
    case EstadoCivilField => Required(f.estadoCivil)
    case HijosField => f.hijos.Given? && f.hijos.x.num >= 0
    case DireccionField => Required(f.direccion)
    case ComunaIdField => Required(f.comunaId)
    case CiudadField => Required(f.ciudad)
    case DepartamentoIdField => Required(f.departamentoId)
    case CargoIdField => Required(f.cargoId)
    case TipoContratoField => Required(f.tipoContrato)
    case CantidadDuracionField =>
      if IsIndefinido(f) then !f.cantidadDuracion.NotANumber? else Positive(f.cantidadDuracion)
    case UnidadDuracionField => IsIndefinido(f) || Required(f.unidadDuracion)
    case JornadaLaboralIdField => Required(f.jornadaLaboralId)
    case GratificacionTipoField => Required(f.gratificacionTipo)
    case GratificacionMontoField =>
      if IsFija(f) then Positive(f.gratificacionMonto) else !f.gratificacionMonto.NotANumber?
  }

  lemma AllFieldsListed(fld: Field)
    ensures fld in AllFields
  {
  }

  /** The fields on which the schema reports an error: exactly those whose
      rule fails. */
  function Errors(f: Form, isEmail: string -> bool): (errs: set<Field>)
    ensures forall fld :: fld in errs <==> !FieldOk(f, isEmail, fld)
  {
    forall fld ensures fld in AllFields {
      AllFieldsListed(fld);
    }
    set fld | fld in AllFields && !FieldOk(f, isEmail, fld)
  }

  /** The request body built from validated values (`datosLimpios`). */
  datatype Payload = Payload(
    rut: Text,
    nombre: Text,
    apellidos: Text,
    correo: Text,
    telefono: Text,
    fechaNacimiento: Text,
    estadoCivil: Text,
    hijos: Num,
    direccion: Text,
    casaBloqueDepto: Text,
    comunaId: Value,
    ciudad: Text,
    departamentoId: Value,
    cargoId: Value,
    tipoContrato: Text,
    cantidadDuracion: Value,
    unidadDuracion: Text,
    jornadaLaboralId: Value,
    gratificacionTipo: Text,
    gratificacionMonto: Option<Fraction>
  )

  /** `x ? parseInt(x) : null` for an identifier chosen in a select box: the
      identifier a digit text spells, and null when nothing was chosen. */
  function IdOrNull(t: Text): (v: Value)
    ensures TruthyText(t) <==> v.Number?
    ensures !TruthyText(t) ==> v == Null
    ensures TruthyText(t) && AllDigits(t.value) ==> v == Number(Finite(DigitsValue(t.value)))
  {
    if TruthyText(t) then
      var v := Number(ParseInt(t.value, Unspecified));
      if AllDigits(t.value) then ParseIntOfDigits(t.value, Unspecified); v else v
    else Null
  }

  /** `parseInt` of a number: its decimal text read up to the point, which
      truncates toward zero. */
  function Truncate(x: Fraction): (r: int)
    ensures x.num >= 0 ==> 0 <= r && r * x.den <= x.num < (r + 1) * x.den
    ensures x.num < 0 ==> r <= 0 && -r * x.den <= -x.num < (-r + 1) * x.den
  {
    if x.num >= 0 then
      DivBounds(x.num, x.den);
      x.num / x.den
    else
      DivBounds(-x.num, x.den);
      -((-x.num) / x.den)
  }

  /** The quotient of natural division is the number of whole divisors. */
  lemma DivBounds(a: int, d: int)
    requires a >= 0 && d >= 1
    ensures 0 <= a / d
    ensures (a / d) * d <= a < (a / d + 1) * d
  {
    var q := a / d;
    assert a == q * d + a % d;
    assert (q + 1) * d == q * d + d;
  }

  /** `parseInt(x)` of a numeric input. */
  function ParseNumberInput(x: NumberInput): (r: Num)
    ensures x.Given? <==> r.Finite?
    ensures x.Given? ==> r == Finite(Truncate(x.x))
  {
    match x
    case Given(q) => Finite(Truncate(q))
    case _ => NaN
  }

  /** `cond && x ? parseInt(x) : null`: the truncated number when `cond`
      holds and `x` is a non-zero number. The result is positive only for
      inputs of at least one. */
  function NumberWhen(cond: bool, x: NumberInput): (v: Value)
    ensures v != Null <==> cond && x.Given? && x.x.num != 0
    ensures v != Null ==> v.Number? && v.num.Finite? && (v.num.n > 0 <==> x.x.num >= x.x.den)
  {
    if cond && x.Given? && x.x.num != 0 then Number(ParseNumberInput(x)) else Null
  }

  /** `cond && x ? parseFloat(x) : null`: the number itself when `cond`
      holds and `x` is a non-zero number. */
  function FractionWhen(cond: bool, x: NumberInput): (v: Option<Fraction>)
    ensures v.Some? <==> cond && x.Given? && x.x.num != 0
    ensures v.Some? ==> v.value == x.x
  {
    if cond && x.Given? && x.x.num != 0 then Some(x.x) else None
  }

  /** `datosLimpios`: every value is carried over, identifiers are parsed,
      the duration is dropped for an open-ended contract and the bonus amount
      is dropped unless the bonus is fixed. */
  function Normalise(f: Form): (p: Payload)
    ensures p.rut == f.rut && p.nombre == f.nombre && p.apellidos == f.apellidos
    ensures p.correo == f.correo && p.telefono == f.telefono
    ensures p.fechaNacimiento == f.fechaNacimiento && p.estadoCivil == f.estadoCivil
    ensures p.direccion == f.direccion && p.casaBloqueDepto == f.casaBloqueDepto
    ensures p.ciudad == f.ciudad && p.tipoContrato == f.tipoContrato
    ensures p.gratificacionTipo == f.gratificacionTipo
    ensures IsIndefinido(f) ==> p.cantidadDuracion == Null && p.unidadDuracion == None
    ensures !IsIndefinido(f) ==> p.unidadDuracion == f.unidadDuracion
    ensures !IsFija(f) ==> p.gratificacionMonto == None
  {
    var indefinido := IsIndefinido(f);
    Payload(
      rut := f.rut,
      nombre := f.nombre,
      apellidos := f.apellidos,
      correo := f.correo,
      telefono := f.telefono,
      fechaNacimiento := f.fechaNacimiento,
      estadoCivil := f.estadoCivil,
      hijos := ParseNumberInput(f.hijos),
      direccion := f.direccion,
      casaBloqueDepto := f.casaBloqueDepto,
      comunaId := IdOrNull(f.comunaId),
      ciudad := f.ciudad,
      departamentoId := IdOrNull(f.departamentoId),
      cargoId := IdOrNull(f.cargoId),
      tipoContrato := f.tipoContrato,
      cantidadDuracion := NumberWhen(!indefinido, f.cantidadDuracion),
      unidadDuracion := if indefinido then None else f.unidadDuracion,
      jornadaLaboralId := IdOrNull(f.jornadaLaboralId),
      gratificacionTipo := f.gratificacionTipo,
      gratificacionMonto := FractionWhen(IsFija(f), f.gratificacionMonto)
    )
  }

  predicate PositiveNumber(v: Value) {
    v.Number? && v.num.Finite? && v.num.n > 0
  }

  /** A form the schema accepts carries a duration (a positive length and a
      unit) exactly when the contract is not open-ended. The posted length is
      the entered one truncated, so it is positive only for lengths of at
      least one: a length of `0.5` passes the schema and is posted as 0. */
  lemma AcceptedFormDuration(f: Form, isEmail: string -> bool)
    requires Errors(f, isEmail) == {}
    ensures var p := Normalise(f);
      && (IsIndefinido(f) <==> p.cantidadDuracion == Null)
      && (IsIndefinido(f) ==> p.unidadDuracion == None)
      && (!IsIndefinido(f) ==>
            && Required(p.unidadDuracion)
            && f.cantidadDuracion.Given? && f.cantidadDuracion.x.num > 0
            && p.cantidadDuracion == Number(Finite(Truncate(f.cantidadDuracion.x)))
            && (PositiveNumber(p.cantidadDuracion) <==> f.cantidadDuracion.x.num >= f.cantidadDuracion.x.den))
  {
    assert FieldOk(f, isEmail, CantidadDuracionField);
    assert FieldOk(f, isEmail, UnidadDuracionField);
  }

  /** A form the schema accepts carries a bonus amount exactly when the bonus
      is fixed, and then it is the positive amount entered. */
  lemma AcceptedFormBonus(f: Form, isEmail: string -> bool)
    requires Errors(f, isEmail) == {}
    ensures var p := Normalise(f);
      && (IsFija(f) <==> p.gratificacionMonto.Some?)
      && (IsFija(f) ==>
            && f.gratificacionMonto.Given? && f.gratificacionMonto.x.num > 0
            && p.gratificacionMonto == Some(f.gratificacionMonto.x))
  {
    assert FieldOk(f, isEmail, GratificacionMontoField);
  }

  /** A blank duration and unit are errors exactly when the contract is not
      open-ended. */
  lemma DurationRequiredUnlessOpenEnded(f: Form, isEmail: string -> bool)
    requires f.cantidadDuracion.Blank? && !Required(f.unidadDuracion)
    ensures CantidadDuracionField in Errors(f, isEmail) <==> !IsIndefinido(f)
    ensures UnidadDuracionField in Errors(f, isEmail) <==> !IsIndefinido(f)
  {
  }

  /** A blank bonus amount is an error exactly when the bonus is fixed. */
  lemma AmountRequiredWhenFixed(f: Form, isEmail: string -> bool)
    requires f.gratificacionMonto.Blank?
    ensures GratificacionMontoField in Errors(f, isEmail) <==> IsFija(f)
  {
  }

  /** The phone is optional: a missing or empty phone is never an error. */
  lemma PhoneOptional(f: Form, isEmail: string -> bool)
    requires f.telefono.None? || f.telefono == Some("")
    ensures TelefonoField !in Errors(f, isEmail)
  {
  }

  /** A form the schema accepts yields a payload with a non-negative number
      of children, every select-box identifier present, and a RUT that passes
      the check. */
  lemma AcceptedFormIdentifiers(f: Form, isEmail: string -> bool)
    requires Errors(f, isEmail) == {}
    ensures var p := Normalise(f);
      && p.hijos.Finite? && p.hijos.n >= 0
      && p.comunaId.Number? && p.departamentoId.Number? && p.cargoId.Number?
      && p.jornadaLaboralId.Number?
      && Rut.ValidarRut(p.rut)
  {
    assert FieldOk(f, isEmail, HijosField);
    assert FieldOk(f, isEmail, RutField);
    assert FieldOk(f, isEmail, ComunaIdField);
    assert FieldOk(f, isEmail, DepartamentoIdField);
    assert FieldOk(f, isEmail, CargoIdField);
    assert FieldOk(f, isEmail, JornadaLaboralIdField);
  }
}

=== FILE: worker_list.dfy ===
/** Page navigation in the worker list: the "Anterior"/"Siguiente" buttons,
    the filter box that returns to the first page, and the page count taken
    from each load. */
module WorkerList {
  import opened Strings
  import opened Js

  /** Rows per page the list asks for. */
  const PageSize: nat := 5

  /** The list's state: the current page, the page count last loaded (any
      JavaScript value the response carried) and the filter text. */
  datatype ListState = ListState(pagina: int, totalPaginas: Value, filtro: string)

  /** The state the page starts in. */
  const Initial := ListState(1, Number(Finite(1)), "")

  /** What the user or a load can do. `Loaded(None)` is a failed load;
      `Loaded(Some(v))` carries the page count of the response. */
  datatype Event = Previous | Next | EditFilter(text: string) | Loaded(total: Option<Value>)

  /** The page count after a load: the response's value, or 1 on failure. */
  function AfterLoad(s: ListState, total: Option<Value>): (t: ListState)
    ensures t.pagina == s.pagina && t.filtro == s.filtro
    ensures total.None? ==> t.totalPaginas == Number(Finite(1))
    ensures total.Some? ==> t.totalPaginas == total.value
  {
    match total
    case Some(v) => s.(totalPaginas := v)
    case None => s.(totalPaginas := Number(Finite(1)))
  }

  /** "Anterior" is disabled on page 1. */
  predicate PreviousEnabled(s: ListState) {
    s.pagina != 1
  }

  /** "Siguiente" as written: disabled only when the page is strictly equal
      to the page count. */
  predicate NextEnabledAsWritten(s: ListState) {
    s.totalPaginas != Number(Finite(s.pagina))
  }

  /** The common part of both versions: the previous button, the filter box
      and loads. The filter box goes back to the first page. */
  function StepWith(s: ListState, e: Event, nextEnabled: bool): (t: ListState)
    ensures e.EditFilter? ==> t == ListState(1, s.totalPaginas, e.text)
    ensures e.Previous? ==> t.pagina == (if s.pagina != 1 then s.pagina - 1 else s.pagina)
    ensures e.Next? ==> t.pagina == (if nextEnabled then s.pagina + 1 else s.pagina)
    ensures !e.Loaded? ==> t.totalPaginas == s.totalPaginas
    ensures !e.EditFilter? ==> t.filtro == s.filtro
    ensures e.Loaded? ==> t.pagina == s.pagina
  {
    match e
    case Previous => if PreviousEnabled(s) then s.(pagina := s.pagina - 1) else s
    case Next => if nextEnabled then s.(pagina := s.pagina + 1) else s
    case EditFilter(text) => s.(pagina := 1, filtro := text)
    case Loaded(total) => AfterLoad(s, total)
  }

  /** One step of the list as written. */
  function StepAsWritten(s: ListState, e: Event): ListState {
    StepWith(s, e, NextEnabledAsWritten(s))
  }

  /** `pagina < totalPaginas`, with the page count coerced to a number the
      way JavaScript compares (a missing count compares false). */
  predicate BeforeLastPage(s: ListState) {
    var t := ToNumberValue(s.totalPaginas);
    t.PosInfinity? || (t.Finite? && s.pagina < t.n)
  }

  /** One step with "Siguiente" enabled only before the last page. */
  function Step(s: ListState, e: Event): ListState {
    StepWith(s, e, BeforeLastPage(s))
  }

  /** The page never drops below 1, in either version. */
  lemma PageStaysPositive(s: ListState, e: Event)
    requires s.pagina >= 1
    ensures StepAsWritten(s, e).pagina >= 1
    ensures Step(s, e).pagina >= 1
  {
  }

  /** Typing in the filter box goes back to page 1 with the new filter, in
      either version, and a load replaces only the page count: the response's
      count, or 1 when the request failed. */
  lemma FilterEditResetsPage(s: ListState, text: string, total: Option<Value>)
    ensures Step(s, EditFilter(text)) == StepAsWritten(s, EditFilter(text)) == ListState(1, s.totalPaginas, text)
    ensures Step(s, Loaded(total)) == StepAsWritten(s, Loaded(total))
      == s.(totalPaginas := if total.Some? then total.value else Number(Finite(1)))
  {
  }

  /** The last page the loaded count allows, read as JavaScript reads it in
      a comparison, and 1 when the count is not a positive number. */
  function LastPage(s: ListState): (n: nat)
    ensures n >= 1
    ensures var t := ToNumberValue(s.totalPaginas); t.Finite? && t.n >= 1 ==> n == t.n
  {
    var t := ToNumberValue(s.totalPaginas);
    if t.Finite? && t.n >= 1 then t.n else 1
  }

  /** A value that came through JSON: JSON has no NaN or infinities (they are
      written as `null`). */
  predicate FromJson(v: Value) {
    v.Number? ==> v.num.Finite?
  }

  /** The page lies in 1..the last page. */
  predicate InRange(s: ListState) {
    1 <= s.pagina <= LastPage(s)
  }

  /** As written, with a positive page count, the buttons and the filter keep
      the page within range. */
  lemma AsWrittenInRangeWithPositiveCount(s: ListState, e: Event)
    requires InRange(s)
    requires s.totalPaginas.Number? && s.totalPaginas.num.Finite? && s.totalPaginas.num.n >= 1
    requires !e.Loaded?
    ensures InRange(StepAsWritten(s, e))
  {
  }

  /** As written, a page count of 0 (what an empty result gives) leaves
      "Siguiente" enabled on page 1, and it takes the page to 2. */
  lemma AsWrittenLeavesRangeOnZeroPages()
    ensures var s := ListState(1, Number(Finite(0)), "");
      InRange(s) && NextEnabledAsWritten(s) && !InRange(StepAsWritten(s, Next))
  {
  }

  /** With "Siguiente" enabled only before the last page, the buttons and the
      filter keep the page within range whatever count was loaded. */
  lemma StepKeepsInRange(s: ListState, e: Event)
    requires InRange(s) && FromJson(s.totalPaginas)
    requires !e.Loaded?
    ensures InRange(Step(s, e))
  {
    if e.Next? && BeforeLastPage(s) {
      assert !ToNumberValue(s.totalPaginas).PosInfinity?;
    }
  }

  /** With the corrected button, "Siguiente" never moves past the last page,
      even when a load has shrunk the count under the current page. */
  lemma NextNeverPassesLastPage(s: ListState)
    requires s.pagina >= 1
    requires !ToNumberValue(s.totalPaginas).PosInfinity?
    ensures Step(s, Next).pagina == s.pagina || Step(s, Next).pagina <= ToNumberValue(s.totalPaginas).n
  {
  }

  /** The query string of a load: the current page, the page size and the
      filter. */
  function LoadQuery(s: ListState): (q: map<string, Value>)
    requires s.pagina >= 1
    ensures "pagina" in q && "limite" in q && "filtro" in q
    ensures ParseIntValue(q["pagina"]) == Finite(s.pagina)
    ensures ParseIntValue(q["limite"]) == Finite(PageSize)
    ensures q["filtro"] == Str(s.filtro)
  {
    ParseIntOfDecimal(s.pagina, Unspecified);
    ParseIntOfDecimal(PageSize, Unspecified);
    map["pagina" := Str(NatToString(s.pagina)),
        "limite" := Str(NatToString(PageSize)),
        "filtro" := Str(s.filtro)]
  }
}

=== FILE: workers_controller.dfy ===
/** The workers endpoints: the paginated, filtered listing and the SQL
    statements built for creating and updating a worker. Statement results
    (rows, counts, whether a RUT exists) are inputs. */
module WorkersController {
  import opened Strings
  import opened Js
  import opened SqlText
  import opened Request
  import WorkerList

  // ---- Listing ----

  /** The filter condition shared by the row and the count statements: the
      company is `$1` and the search pattern `$2`, matched against the names,
      surnames and RUT of active workers. */
  const ListFilter: seq<Piece> :=
    [Lit(" WHERE activo = true AND empresa_id = "), Param(1)]
    + [Lit(" AND (nombre ILIKE "), Param(2)]
    + [Lit(" OR apellidos ILIKE "), Param(2)]
    + [Lit(" OR rut ILIKE "), Param(2)]
    + [Lit(")")]

  const ListPage: seq<Piece> :=
    [Lit(" ORDER BY id_trabajadores LIMIT "), Param(3)] + [Lit(" OFFSET "), Param(4)]

  const ListRows: seq<Piece> := [Lit("SELECT * FROM trabajadores")] + ListFilter + ListPage

  const ListCount: seq<Piece> := [Lit("SELECT COUNT(*) FROM trabajadores")] + ListFilter

  // The literal texts of the statements hold no `$` and start with no digit.

  lemma CompanyLiteralsSafe()
    ensures SafeText(" WHERE activo = true AND empresa_id = ")
    ensures SafeText(" AND (nombre ILIKE ")
  {
  }

  lemma PatternLiteralsSafe()
    ensures SafeText(" OR apellidos ILIKE ") && SafeText(" OR rut ILIKE ") && SafeText(")")
  {
  }

  lemma PageLiteralsSafe()
    ensures SafeText(" ORDER BY id_trabajadores LIMIT ") && SafeText(" OFFSET ")
  {
  }

  lemma SelectLiteralsSafe()
    ensures SafeText("SELECT * FROM trabajadores")
    ensures SafeText("SELECT COUNT(*) FROM trabajadores")
  {
  }

  lemma RutLiteralsSafe()
    ensures SafeText("SELECT 1 FROM trabajadores WHERE rut = ") && SafeText(" LIMIT 1")
  {
  }

  lemma InsertLiteralsSafe()
    ensures SafeText("INSERT INTO trabajadores (") && '$' !in ") VALUES ("
    ensures SafeText(") RETURNING *")
  {
  }

  lemma UpdateLiteralsSafe()
    ensures SafeText("UPDATE trabajadores SET ") && SafeText(" WHERE id = ")
    ensures SafeText(" RETURNING *")
  {
  }

  lemma ListFilterSafe()
    ensures SafeLiterals(ListFilter) && ParamsOf(ListFilter) == [1, 2, 2, 2]
  {
    var a := [Lit(" WHERE activo = true AND empresa_id = "), Param(1)];
    var b := [Lit(" AND (nombre ILIKE "), Param(2)];
    var c := [Lit(" OR apellidos ILIKE "), Param(2)];
    var d := [Lit(" OR rut ILIKE "), Param(2)];
    var e := [Lit(")")];
    CompanyLiteralsSafe();
    PatternLiteralsSafe();
    assert SafeLiterals(a) && ParamsOf(a) == [1] by {
      LitThenParam(" WHERE activo = true AND empresa_id = ", 1);
    }
    assert SafeLiterals(b) && ParamsOf(b) == [2] by {
      LitThenParam(" AND (nombre ILIKE ", 2);
    }
    assert SafeLiterals(c) && ParamsOf(c) == [2] by {
      LitThenParam(" OR apellidos ILIKE ", 2);
    }
    assert SafeLiterals(d) && ParamsOf(d) == [2] by {
      LitThenParam(" OR rut ILIKE ", 2);
    }
    assert SafeLiterals(e) && ParamsOf(e) == [] by {
      LitAlone(")");
    }
    PiecesAppend(a, b);
    PiecesAppend(a + b, c);
    PiecesAppend(a + b + c, d);
    PiecesAppend(a + b + c + d, e);
    Singletons(ParamsOf(a + b + c + d + e), 1, 2, 2, 2);
  }

  lemma Singletons<T>(whole: seq<T>, w: T, x: T, y: T, z: T)
    requires whole == [w] + [x] + [y] + [z] + []
    ensures whole == [w, x, y, z]
  {
  }

  lemma ListEndsSafe()
    ensures SafeLiterals(ListPage) && ParamsOf(ListPage) == [3, 4]
    ensures SafeLiterals([Lit("SELECT * FROM trabajadores")]) && ParamsOf([Lit("SELECT * FROM trabajadores")]) == []
    ensures SafeLiterals([Lit("SELECT COUNT(*) FROM trabajadores")])
    ensures ParamsOf([Lit("SELECT COUNT(*) FROM trabajadores")]) == []
    ensures Render([Lit("SELECT COUNT(*) FROM trabajadores")]) == "SELECT COUNT(*) FROM trabajadores"
  {
    PageLiteralsSafe();
    SelectLiteralsSafe();
    var a := [Lit(" ORDER BY id_trabajadores LIMIT "), Param(3)];
    var b := [Lit(" OFFSET "), Param(4)];
    assert SafeLiterals(a) && ParamsOf(a) == [3] by {
      LitThenParam(" ORDER BY id_trabajadores LIMIT ", 3);
    }
    assert SafeLiterals(b) && ParamsOf(b) == [4] by {
      LitThenParam(" OFFSET ", 4);
    }
    PiecesAppend(a, b);
    LitAlone("SELECT * FROM trabajadores");
    LitAlone("SELECT COUNT(*) FROM trabajadores");
  }

  /** The listing statements read `$1`, `$2` (three times), then `$3` and `$4`
      for the limit and offset; the count statement only `$1` and `$2`; and
      the count filters exactly as the rows do. */
  lemma ListTextsPlaceholders()
    ensures Placeholders(Render(ListRows)) == [1, 2, 2, 2, 3, 4]
    ensures Placeholders(Render(ListCount)) == [1, 2, 2, 2]
    ensures Render(ListCount) == "SELECT COUNT(*) FROM trabajadores" + Render(ListFilter)
  {
    var select := [Lit("SELECT * FROM trabajadores")];
    var count := [Lit("SELECT COUNT(*) FROM trabajadores")];
    ListFilterSafe();
    ListEndsSafe();
    PiecesAppend(select, ListFilter);
    PiecesAppend(select + ListFilter, ListPage);
    PiecesAppend(count, ListFilter);
    RenderedParams(ListRows);
    RenderedParams(ListCount);
  }

  /** The paging part of a listing request. */
  datatype PageRequest = PageRequest(page: Num, limit: Num, filtro: string)

  /** `{ pagina = 1, limite = 10, filtro = "" } = req.query`, then `parseInt`
      on the page and the limit; the filter is used as text. */
  function ReadPageRequest(query: Params): (r: PageRequest)
    ensures "pagina" !in query ==> r.page == Finite(1)
    ensures "limite" !in query ==> r.limit == Finite(10)
    ensures "filtro" !in query ==> r.filtro == ""
    ensures "pagina" in query && query["pagina"] != Undefined ==> r.page == ParseIntValue(query["pagina"])
    ensures "limite" in query && query["limite"] != Undefined ==> r.limit == ParseIntValue(query["limite"])
    ensures "filtro" in query && query["filtro"].Str? ==> r.filtro == query["filtro"].s
  {
    assert ParseIntValue(Number(Finite(1))) == Finite(1) by {
      ParseIntOfDecimal(1, Unspecified);
    }
    assert ParseIntValue(Number(Finite(10))) == Finite(10) by {
      ParseIntOfDecimal(10, Unspecified);
    }
    PageRequest(
      ParseIntValue(GetOr(query, "pagina", Number(Finite(1)))),
      ParseIntValue(GetOr(query, "limite", Number(Finite(10)))),
      ToText(GetOr(query, "filtro", Str(""))))
  }

  /** The statements and numbers of one listing request. */
  datatype ListPlan = ListPlan(rows: Statement, count: Statement, page: Num, limit: Num, offset: Num)

  /** `getTrabajadores` up to its statements: the offset of the requested
      page, the filter wrapped in `%` for a substring match, and both
      statements bound to the company, the pattern, the limit and the offset. */
  function ListPlanFor(query: Params, empresaId: Value): (p: ListPlan)
    ensures var r := ReadPageRequest(query); p.page == r.page && p.limit == r.limit
    ensures BindsExactly(p.rows) && BindsExactly(p.count)
    ensures |p.rows.params| == 4 && p.count.params == p.rows.params[..2]
    ensures p.rows.params[0] == empresaId
    ensures p.rows.params[1] == Str("%" + ReadPageRequest(query).filtro + "%")
    ensures p.rows.params[2] == Number(p.limit) && p.rows.params[3] == Number(p.offset)
    ensures p.page.Finite? && p.limit.Finite? ==> p.offset == Finite(PageOffset(p.page.n, p.limit.n))
    ensures p.page.NaN? || p.limit.NaN? ==> p.offset.NaN?
  {
    var r := ReadPageRequest(query);
    var offset := Mul(Sub(r.page, Finite(1)), r.limit);
    var pattern := Str("%" + r.filtro + "%");
    ListStatements(empresaId, pattern, Number(r.limit), Number(offset));
    ListPlan(
      Statement(Render(ListRows), [empresaId, pattern, Number(r.limit), Number(offset)]),
      Statement(Render(ListCount), [empresaId, pattern]),
      r.page, r.limit, offset)
  }

  /** Both listing statements bind exactly their parameters. */
  lemma ListStatements(empresaId: Value, pattern: Value, limit: Value, offset: Value)
    ensures BindsExactly(Statement(Render(ListRows), [empresaId, pattern, limit, offset]))
    ensures BindsExactly(Statement(Render(ListCount), [empresaId, pattern]))
  {
    ListTextsPlaceholders();
    ListBinds(Statement(Render(ListRows), [empresaId, pattern, limit, offset]),
      Statement(Render(ListCount), [empresaId, pattern]));
  }

  lemma ListBinds(rows: Statement, count: Statement)
    requires Placeholders(rows.text) == [1, 2, 2, 2, 3, 4] && |rows.params| == 4
    requires Placeholders(count.text) == [1, 2, 2, 2] && |count.params| == 2
    ensures BindsExactly(rows) && BindsExactly(count)
  {
    RowsBind(rows);
    CountBinds(count);
  }

  lemma RowsBind(rows: Statement)
    requires Placeholders(rows.text) == [1, 2, 2, 2, 3, 4] && |rows.params| == 4
    ensures BindsExactly(rows)
  {
    var r := Placeholders(rows.text);
    forall k | 1 <= k <= 4
      ensures k in r
    {
      assert r[if k <= 2 then k - 1 else k + 1] == k;
    }
  }

  lemma CountBinds(count: Statement)
    requires Placeholders(count.text) == [1, 2, 2, 2] && |count.params| == 2
    ensures BindsExactly(count)
  {
    var c := Placeholders(count.text);
    assert c[0] == 1 && c[1] == 2;
  }

  /** Without query parameters the listing reads the first 10 rows and
      matches every text. */
  lemma ListDefaults(empresaId: Value)
    ensures var p := ListPlanFor(map[], empresaId);
      p.page == Finite(1) && p.limit == Finite(10) && p.offset == Finite(0)
      && p.rows.params[1] == Str("%%")
  {
  }

  /** A query whose page and limit read as numbers is planned with the
      offset of that page and the filter as the pattern. */
  lemma ListPlanForReadableQuery(q: Params, k: int, size: int, filtro: string, empresaId: Value)
    requires "pagina" in q && "limite" in q && "filtro" in q
    requires ParseIntValue(q["pagina"]) == Finite(k) && ParseIntValue(q["limite"]) == Finite(size)
    requires q["filtro"] == Str(filtro)
    ensures var p := ListPlanFor(q, empresaId);
      && p.page == Finite(k) && p.limit == Finite(size)
      && p.offset == Finite(PageOffset(k, size))
      && p.rows.params[1] == Str("%" + filtro + "%")
  {
    var p := ListPlanFor(q, empresaId);
    var r := ReadPageRequest(q);
    assert r.page == Finite(k) && r.limit == Finite(size) && r.filtro == filtro;
  }

  /** The request the worker list sends is read back as its page and page
      size: the offset skips exactly the earlier pages. */
  lemma ListPlanForListRequest(s: WorkerList.ListState, empresaId: Value)
    requires s.pagina >= 1
    ensures var p := ListPlanFor(WorkerList.LoadQuery(s), empresaId);
      && p.page == Finite(s.pagina)
      && p.limit == Finite(WorkerList.PageSize)
      && p.offset == Finite(PageOffset(s.pagina, WorkerList.PageSize))
      && p.rows.params[1] == Str("%" + s.filtro + "%")
  {
    ListPlanForReadableQuery(WorkerList.LoadQuery(s), s.pagina, WorkerList.PageSize, s.filtro, empresaId);
  }

  /** The listing response. */
  datatype ListResponse<Row> = ListResponse(
    data: seq<Row>,
    total: Num,
    pagina: Num,
    limite: Num,
    totalPaginas: Num,
    message: string,
    error: bool
  )

  /** The response built from the rows and the count the statements returned
      (the count arrives as text and is parsed). */
  function ListResponseFor<Row>(p: ListPlan, rows: seq<Row>, count: nat): (r: ListResponse<Row>)
    ensures r.total == Finite(count) && r.data == rows
    ensures r.pagina == p.page && r.limite == p.limit && !r.error
    ensures r.message == "Sin trabajadores" <==> |rows| == 0
    ensures p.limit.Finite? && p.limit.n > 0 ==>
      r.totalPaginas.Finite? && r.totalPaginas.n * p.limit.n >= count
      && (r.totalPaginas.n - 1) * p.limit.n < count
  {
    ParseIntOfDecimal(count, Unspecified);
    var total := ParseInt(NatToString(count), Unspecified);
    ListResponse(
      data := rows,
      total := total,
      pagina := p.page,
      limite := p.limit,
      totalPaginas := CeilDiv(count, p.limit),
      message := if |rows| > 0 then "Datos cargados" else "Sin trabajadores",
      error := false
    )
  }

  /** An empty result has zero pages, which is the page count on which the
      list's "Siguiente" button stays enabled as written. */
  lemma EmptyListHasZeroPages<Row>(p: ListPlan)
    requires p.limit.Finite? && p.limit.n > 0
    ensures ListResponseFor<Row>(p, [], 0).totalPaginas == Finite(0)
  {
  }

  // ---- Create and update ----

  /** How a body value is turned into a statement parameter. */
  datatype Coercion = AsGiven | OrNullValue | ParsedInt

  function Coerce(c: Coercion, v: Value): (r: Value)
    ensures c == AsGiven ==> r == v
    ensures c == OrNullValue ==> r == OrNull(v)
    ensures c == ParsedInt ==> r == Number(ParseIntValue(v))
  {
    match c
    case AsGiven => v
    case OrNullValue => OrNull(v)
    case ParsedInt => Number(ParseIntValue(v))
  }

  /** A table column, the body key it is read from, and its coercion. */
  datatype Column = Column(name: string, key: string, coercion: Coercion)

  /** The columns `createTrabajador` always writes, in order. */
  const InsertColumns: seq<Column> := [
    Column("rut", "rut", AsGiven),
    Column("nombre", "nombre", AsGiven),
    Column("apellidos", "apellidos", AsGiven),
    Column("correo", "correo", AsGiven),
    Column("telefono", "telefono", OrNullValue),
    Column("fecha_nacimiento", "fechaNacimiento", AsGiven),
    Column("estado_civil", "estadoCivil", AsGiven),
    Column("hijos", "hijos", ParsedInt),
    Column("direccion", "direccion", AsGiven),
    Column("casa_bloque_depto", "casaBloqueDepto", OrNullValue),
    Column("id_comunas", "comunaId", ParsedInt),
    Column("ciudad", "ciudad", AsGiven),
    Column("id_departamentos", "departamentoId", ParsedInt),
    Column("id_cargo", "cargoId", ParsedInt),
    Column("empresa_id", "empresa_id", ParsedInt)
  ]

  /** The columns `updateTrabajador` always writes, in order. */
  const UpdateColumns: seq<Column> := [
    Column("nombre", "nombre", AsGiven),
    Column("apellidos", "apellidos", AsGiven),
    Column("correo", "correo", AsGiven),
    Column("telefono", "telefono", OrNullValue),
    Column("fecha_nacimiento", "fechaNacimiento", AsGiven),
    Column("estado_civil", "estadoCivil", AsGiven),
    Column("hijos", "hijos", ParsedInt),
    Column("direccion", "direccion", AsGiven),
    Column("casa_bloque_depto", "casaBloqueDepto", OrNullValue),
    Column("id_comunas", "comunaId", ParsedInt),
    Column("ciudad", "ciudad", AsGiven),
    Column("id_departamentos", "departamentoId", ParsedInt),
    Column("id_cargo", "cargoId", ParsedInt)
  ]

  /** An update writes the same columns, read and coerced the same way, as a
      create, except the RUT (first) and the company (last), which it never
      changes. */
  lemma UpdateColumnsAreInsertColumnsWithoutKeys()
    ensures |InsertColumns| == 15 && |UpdateColumns| == 13
    ensures UpdateColumns == InsertColumns[1..14]
    ensures InsertColumns[0].name == "rut" && InsertColumns[14].name == "empresa_id"
    ensures forall i :: 0 <= i < |UpdateColumns| ==>
      UpdateColumns[i].name != "rut" && UpdateColumns[i].name != "empresa_id"
  {
  }

  /** The base columns of an insert and what is written to each, listed the
      way the handler lists them: text fields as received, the phone and the
      flat number or null, the counts and identifiers through `parseInt`. */
  lemma InsertWrites(body: Params)
    ensures Names(BaseAssignments(InsertColumns, body)) == [
      "rut", "nombre", "apellidos", "correo", "telefono", "fecha_nacimiento",
      "estado_civil", "hijos", "direccion", "casa_bloque_depto", "id_comunas",
      "ciudad", "id_departamentos", "id_cargo", "empresa_id"]
    ensures Values(BaseAssignments(InsertColumns, body)) == [
      Get(body, "rut"), Get(body, "nombre"), Get(body, "apellidos"), Get(body, "correo"),
      OrNull(Get(body, "telefono")), Get(body, "fechaNacimiento"), Get(body, "estadoCivil"),
      Number(ParseIntValue(Get(body, "hijos"))), Get(body, "direccion"),
      OrNull(Get(body, "casaBloqueDepto")), Number(ParseIntValue(Get(body, "comunaId"))),
      Get(body, "ciudad"), Number(ParseIntValue(Get(body, "departamentoId"))),
      Number(ParseIntValue(Get(body, "cargoId"))), Number(ParseIntValue(Get(body, "empresa_id")))]
  {
  }

  /** The base columns of an update and what is written to each. */
  lemma UpdateWrites(body: Params)
    ensures Names(BaseAssignments(UpdateColumns, body)) == [
      "nombre", "apellidos", "correo", "telefono", "fecha_nacimiento",
      "estado_civil", "hijos", "direccion", "casa_bloque_depto", "id_comunas",
      "ciudad", "id_departamentos", "id_cargo"]
    ensures Values(BaseAssignments(UpdateColumns, body)) == [
      Get(body, "nombre"), Get(body, "apellidos"), Get(body, "correo"),
      OrNull(Get(body, "telefono")), Get(body, "fechaNacimiento"), Get(body, "estadoCivil"),
      Number(ParseIntValue(Get(body, "hijos"))), Get(body, "direccion"),
      OrNull(Get(body, "casaBloqueDepto")), Number(ParseIntValue(Get(body, "comunaId"))),
      Get(body, "ciudad"), Number(ParseIntValue(Get(body, "departamentoId"))),
      Number(ParseIntValue(Get(body, "cargoId")))]
  {
  }

  /** The stored names of the uploaded documents; `None` or empty when a
      document was not uploaded. */
  datatype Uploads = Uploads(cv: Text, certificadoAntecedentes: Text, certificadoAfp: Text, formularioFun: Text)

  /** A column and the parameter written to it. */
  datatype Assignment = Assignment(name: string, value: Value)

  function Names(a: seq<Assignment>): (r: seq<string>)
    ensures |r| == |a| && forall i :: 0 <= i < |a| ==> r[i] == a[i].name
  {
    seq(|a|, i requires 0 <= i < |a| => a[i].name)
  }

  function Values(a: seq<Assignment>): (r: seq<Value>)
    ensures |r| == |a| && forall i :: 0 <= i < |a| ==> r[i] == a[i].value
  {
    seq(|a|, i requires 0 <= i < |a| => a[i].value)
  }

  /** The base columns with their coerced body values. */
  function BaseAssignments(cols: seq<Column>, body: Params): (a: seq<Assignment>)
    ensures |a| == |cols|
    ensures forall i :: 0 <= i < |cols| ==>
      a[i] == Assignment(cols[i].name, Coerce(cols[i].coercion, Get(body, cols[i].key)))
  {
    seq(|cols|, i requires 0 <= i < |cols| =>
      Assignment(cols[i].name, Coerce(cols[i].coercion, Get(body, cols[i].key))))
  }

  function FileAssignment(name: string, file: Text): (a: seq<Assignment>)
    ensures TruthyText(file) ==> a == [Assignment(name, Str(file.value))]
    ensures !TruthyText(file) ==> a == []
    ensures forall x :: x in a ==> x.name == name
  {
    if TruthyText(file) then [Assignment(name, Str(file.value))] else []
  }

  /** The column `name` is written with the uploaded file name when a file
      was uploaded, and not at all otherwise. */
  predicate WrittenWhenUploaded(a: seq<Assignment>, name: string, file: Text) {
    && (TruthyText(file) ==> Assignment(name, Str(file.value)) in a)
    && (!TruthyText(file) ==> forall x :: x in a ==> x.name != name)
  }

  /** The document columns, in the order the handlers push them. */
  const DocumentColumns: seq<string> := ["cv", "certificado_antecedentes", "certificado_afp", "formulario_fun"]

  /** The position of a document column in that order; 4 for any other name. */
  function DocRank(name: string): (k: nat)
    ensures k <= 4
    ensures k < 4 <==> name in DocumentColumns
    ensures k < 4 ==> DocumentColumns[k] == name
  {
    if name == "cv" then 0
    else if name == "certificado_antecedentes" then 1
    else if name == "certificado_afp" then 2
    else if name == "formulario_fun" then 3
    else 4
  }

  /** The document columns that are written: each only when its document was
      uploaded, in the order cv, criminal record certificate, pension fund
      certificate, FUN form (FileColumnsInOrder). */
  function FileAssignments(u: Uploads): (a: seq<Assignment>)
    ensures |a| <= 4
    ensures WrittenWhenUploaded(a, "cv", u.cv)
    ensures WrittenWhenUploaded(a, "certificado_antecedentes", u.certificadoAntecedentes)
    ensures WrittenWhenUploaded(a, "certificado_afp", u.certificadoAfp)
    ensures WrittenWhenUploaded(a, "formulario_fun", u.formularioFun)
  {
    FileAssignment("cv", u.cv)
    + FileAssignment("certificado_antecedentes", u.certificadoAntecedentes)
    + FileAssignment("certificado_afp", u.certificadoAfp)
    + FileAssignment("formulario_fun", u.formularioFun)
  }

  /** Only document columns are written, and in the handlers' order. */
  lemma FileColumnsInOrder(u: Uploads)
    ensures forall x :: x in FileAssignments(u) ==> x.name in DocumentColumns
    ensures forall i, j :: 0 <= i < j < |FileAssignments(u)| ==>
      DocRank(FileAssignments(u)[i].name) < DocRank(FileAssignments(u)[j].name)
  {
    var a1 := FileAssignment("cv", u.cv);
    var a2 := a1 + FileAssignment("certificado_antecedentes", u.certificadoAntecedentes);
    var a3 := a2 + FileAssignment("certificado_afp", u.certificadoAfp);
    RankedAppend([], a1, 0);
    RankedAppend(a1, FileAssignment("certificado_antecedentes", u.certificadoAntecedentes), 1);
    RankedAppend(a2, FileAssignment("certificado_afp", u.certificadoAfp), 2);
    RankedAppend(a3, FileAssignment("formulario_fun", u.formularioFun), 3);
    assert [] + a1 == a1;
  }

  /** Document assignments in strictly increasing column order. */
  predicate Ranked(a: seq<Assignment>) {
    forall i, j :: 0 <= i < j < |a| ==> DocRank(a[i].name) < DocRank(a[j].name)
  }

  /** Appending at most one assignment of a later column keeps the order. */
  lemma RankedAppend(a: seq<Assignment>, c: seq<Assignment>, k: nat)
    requires k < 4 && Ranked(a) && |c| <= 1
    requires forall x :: x in a ==> DocRank(x.name) < k
    requires forall x :: x in c ==> x.name == DocumentColumns[k]
    ensures Ranked(a + c)
    ensures forall x :: x in a + c ==> DocRank(x.name) <= k
  {
    forall x | x in c
      ensures DocRank(x.name) == k
    {
    }
    forall i, j | 0 <= i < j < |a + c|
      ensures DocRank((a + c)[i].name) < DocRank((a + c)[j].name)
    {
      if j >= |a| {
        assert (a + c)[i] in a;
        assert (a + c)[j] in c;
      }
    }
  }

  /** Column names hold no `$` and do not start with a digit, so they can
      neither be read as placeholders nor extend one. */
  lemma ColumnNamesSafe()
    ensures forall i :: 0 <= i < |InsertColumns| ==> SafeText(InsertColumns[i].name)
    ensures forall i :: 0 <= i < |UpdateColumns| ==> SafeText(UpdateColumns[i].name)
  {
    LeadingNamesSafe();
    TrailingNamesSafe();
    UpdateColumnsAreInsertColumnsWithoutKeys();
    forall i | 0 <= i < |UpdateColumns|
      ensures SafeText(UpdateColumns[i].name)
    {
      assert UpdateColumns[i] == InsertColumns[i + 1];
    }
  }

  lemma LeadingNamesSafe()
    ensures forall i :: 0 <= i < 8 ==> SafeText(InsertColumns[i].name)
  {
  }

  lemma TrailingNamesSafe()
    ensures forall i :: 8 <= i < |InsertColumns| ==> SafeText(InsertColumns[i].name)
  {
  }

  lemma FileNamesSafe(u: Uploads)
    ensures forall i :: 0 <= i < |FileAssignments(u)| ==> SafeText(FileAssignments(u)[i].name)
  {
    assert SafeText("cv") && SafeText("certificado_antecedentes");
    assert SafeText("certificado_afp") && SafeText("formulario_fun");
  }

  /** All columns a statement writes: the base columns then the documents. */
  function Assignments(cols: seq<Column>, body: Params, u: Uploads): (a: seq<Assignment>)
    ensures |a| == |cols| + |FileAssignments(u)|
    ensures a[..|cols|] == BaseAssignments(cols, body)
    ensures a[|cols|..] == FileAssignments(u)
  {
    var a := BaseAssignments(cols, body) + FileAssignments(u);
    assert a[..|cols|] == BaseAssignments(cols, body);
    a
  }

  lemma AssignmentNamesSafe(cols: seq<Column>, body: Params, u: Uploads)
    requires forall i :: 0 <= i < |cols| ==> SafeText(cols[i].name)
    ensures forall i :: 0 <= i < |Assignments(cols, body, u)| ==> SafeText(Assignments(cols, body, u)[i].name)
  {
    var a := Assignments(cols, body, u);
    FileNamesSafe(u);
    forall i | 0 <= i < |a|
      ensures SafeText(a[i].name)
    {
      if i < |cols| {
        assert a[i] == a[..|cols|][i];
      } else {
        assert a[i] == a[|cols|..][i - |cols|];
      }
    }
  }

  /** The statement looking for a worker with the same RUT. */
  const RutLookupText: seq<Piece> :=
    [Lit("SELECT 1 FROM trabajadores WHERE rut = "), Param(1), Lit(" LIMIT 1")]

  function RutLookup(body: Params): (st: Statement)
    ensures NumberedInOrder(st) && st.params == [Get(body, "rut")]
  {
    RutLookupSafe();
    RenderedParams(RutLookupText);
    Statement(Render(RutLookupText), [Get(body, "rut")])
  }

  lemma RutLookupSafe()
    ensures SafeLiterals(RutLookupText) && ParamsOf(RutLookupText) == Numbers(1, 1)
  {
    RutLiteralsSafe();
    var a := [Lit("SELECT 1 FROM trabajadores WHERE rut = "), Param(1)];
    LitThenParam("SELECT 1 FROM trabajadores WHERE rut = ", 1);
    LitAlone(" LIMIT 1");
    PiecesAppend(a, [Lit(" LIMIT 1")]);
    assert RutLookupText == a + [Lit(" LIMIT 1")];
  }

  /** The INSERT text as the source writes it: the column names joined by
      `", "`, then `$1, $2, ... $n`. */
  function InsertText(names: seq<string>, n: nat): string {
    "INSERT INTO trabajadores (" + Join(names, ", ") + ") VALUES ("
    + Join(Tokens(1, n), ", ") + ") RETURNING *"
  }

  /** The INSERT statement reads `$1` to `$n`, once each, in order. */
  lemma InsertTextPlaceholders(names: seq<string>, n: nat)
    requires forall i :: 0 <= i < |names| ==> '$' !in names[i]
    ensures Placeholders(InsertText(names, n)) == Numbers(1, n)
  {
    var columns := "INSERT INTO trabajadores (" + Join(names, ", ") + ") VALUES (";
    var head := [Lit(columns)];
    var list := ParamList(1, n);
    var tail := [Lit(") RETURNING *")];
    assert SafeText(columns) by {
      JoinWithoutDollar(names, ", ");
      InsertLiteralsSafe();
    }
    LitAlone(columns);
    InsertLiteralsSafe();
    LitAlone(") RETURNING *");
    ParamListFacts(1, n);
    PiecesAppend(head, list);
    PiecesAppend(head + list, tail);
    RenderedParams(head + list + tail);
    assert Render(head + list + tail) == InsertText(names, n);
  }

  /** What creating a worker does: answer 400 when the RUT exists, or insert. */
  datatype CreateOutcome = Rejected(status: int, message: string) | Insert(statement: Statement, columns: seq<string>)

  /** `createTrabajador` after the RUT lookup: a known RUT is rejected with
      400 and nothing is inserted; otherwise the INSERT names every base
      column and each uploaded document, and binds `$1..$n` to their values
      in the same order. */
  function Create(body: Params, u: Uploads, rutExists: bool): (o: CreateOutcome)
    ensures rutExists <==> o.Rejected?
    ensures o.Rejected? ==> o.status == 400 && o.message == "Ya existe un trabajador con ese RUT"
    ensures o.Insert? ==>
      && NumberedInOrder(o.statement)
      && |o.columns| == |o.statement.params| >= |InsertColumns|
      && o.columns[..|InsertColumns|] == Names(BaseAssignments(InsertColumns, body))
      && o.columns[|InsertColumns|..] == Names(FileAssignments(u))
      && o.statement.params == Values(Assignments(InsertColumns, body, u))
      && o.statement.text == InsertText(o.columns, |o.columns|)
  {
    if rutExists then Rejected(400, "Ya existe un trabajador con ese RUT")
    else
      var a := Assignments(InsertColumns, body, u);
      var names := Names(a);
      ColumnNamesSafe();
      AssignmentNamesSafe(InsertColumns, body, u);
      InsertTextPlaceholders(names, |a|);
      assert names[..|InsertColumns|] == Names(a[..|InsertColumns|]);
      assert names[|InsertColumns|..] == Names(a[|InsertColumns|..]);
      Insert(Statement(InsertText(names, |a|), Values(a)), names)
  }

  /** The created row carries the RUT and the company of the body, as given
      and parsed respectively, and at most the four documents besides the
      base columns. */
  lemma CreateWritesRutAndCompany(body: Params, u: Uploads)
    ensures var o := Create(body, u, false);
      && 15 <= |o.statement.params| <= 19
      && o.columns[0] == "rut" && o.statement.params[0] == Get(body, "rut")
      && o.columns[14] == "empresa_id"
      && o.statement.params[14] == Number(ParseIntValue(Get(body, "empresa_id")))
  {
    var a := Assignments(InsertColumns, body, u);
    assert a[0] == a[..15][0];
    assert a[14] == a[..15][14];
  }

  /** The SET items as the source writes them: `name = $i`, numbered from
      `start`. */
  function SetItems(names: seq<string>, start: nat): (r: seq<string>)
    ensures |r| == |names|
    ensures forall i :: 0 <= i < |names| ==> r[i] == names[i] + " = " + Token(start + i)
  {
    seq(|names|, i requires 0 <= i < |names| => names[i] + " = " + Token(start + i))
  }

  /** The pieces of the joined SET items. */
  function SetList(names: seq<string>, start: nat): seq<Piece>
    decreases |names|
  {
    if |names| == 0 then []
    else if |names| == 1 then [Lit(names[0] + " = "), Param(start)]
    else [Lit(names[0] + " = "), Param(start), Lit(", ")] + SetList(names[1..], start + 1)
  }

  /** The SET list refers to `start`, ... in order and renders as the
      joined items. */
  lemma {:induction false} SetListFacts(names: seq<string>, start: nat)
    requires forall i :: 0 <= i < |names| ==> SafeText(names[i])
    ensures SafeLiterals(SetList(names, start))
    ensures ParamsOf(SetList(names, start)) == Numbers(start, |names|)
    ensures Render(SetList(names, start)) == Join(SetItems(names, start), ", ")
    decreases |names|
  {
    if |names| > 0 {
      var item := names[0] + " = ";
      assert SafeText(item) by {
        SafeTextConcat(names[0], " = ");
      }
      LitThenParam(item, start);
      if |names| == 1 {
        assert Numbers(start, 1) == [start];
      } else {
        var rest := SetList(names[1..], start + 1);
        SetListFacts(names[1..], start + 1);
        SetListStep(names, start, item, rest);
        assert SetItems(names, start)[1..] == SetItems(names[1..], start + 1);
      }
    }
  }

  /** One step of `SetListFacts`: the first item, a comma, then the rest. */
  lemma SetListStep(names: seq<string>, start: nat, item: string, rest: seq<Piece>)
    requires |names| > 1 && item == names[0] + " = " && rest == SetList(names[1..], start + 1)
    requires SafeText(item)
    requires SafeLiterals(rest) && ParamsOf(rest) == Numbers(start + 1, |names| - 1)
    ensures SafeLiterals(SetList(names, start))
    ensures ParamsOf(SetList(names, start)) == Numbers(start, |names|)
    ensures Render(SetList(names, start)) == item + Token(start) + ", " + Render(rest)
  {
    var head := [Lit(item), Param(start)];
    LitThenParam(item, start);
    LitAlone(", ");
    PiecesAppend(head, [Lit(", ")]);
    PiecesAppend(head + [Lit(", ")], rest);
    assert SetList(names, start) == head + [Lit(", ")] + rest;
    NumbersCons(start, |names|);
  }

  /** The UPDATE text as the source writes it. */
  function UpdateText(names: seq<string>): string {
    "UPDATE trabajadores SET " + Join(SetItems(names, 1), ", ")
    + " WHERE id = " + Token(|names| + 1) + " RETURNING *"
  }

  /** The UPDATE statement: the i-th column is set from `$i` and the id is
      the last placeholder. */
  lemma UpdateTextPlaceholders(names: seq<string>)
    requires forall i :: 0 <= i < |names| ==> SafeText(names[i])
    ensures Placeholders(UpdateText(names)) == Numbers(1, |names| + 1)
  {
    var n := |names|;
    var head := [Lit("UPDATE trabajadores SET ")];
    var list := SetList(names, 1);
    var where := [Lit(" WHERE id = "), Param(n + 1)];
    var tail := [Lit(" RETURNING *")];
    UpdateLiteralsSafe();
    LitAlone("UPDATE trabajadores SET ");
    LitThenParam(" WHERE id = ", n + 1);
    LitAlone(" RETURNING *");
    SetListFacts(names, 1);
    PiecesAppend(head, list);
    PiecesAppend(head + list, where);
    PiecesAppend(head + list + where, tail);
    var ps := head + list + where + tail;
    RenderedParams(ps);
    assert ParamsOf(ps) == Numbers(1, n) + [n + 1] by {
      AddUp(ParamsOf(ps), [], Numbers(1, n), [n + 1], []);
    }
    NumbersSnoc(1, n);
    assert Render(ps) == UpdateText(names) by {
      Regroup(Render(ps), "UPDATE trabajadores SET ", Render(list), " WHERE id = ", Token(n + 1), " RETURNING *");
    }
  }

  lemma Regroup<T>(whole: seq<T>, a: seq<T>, b: seq<T>, c: seq<T>, d: seq<T>, e: seq<T>)
    requires whole == ((a + b) + (c + d)) + e
    ensures whole == a + b + c + d + e
  {
  }

  lemma AddUp<T>(whole: seq<T>, a: seq<T>, b: seq<T>, c: seq<T>, d: seq<T>)
    requires whole == a + b + c + d && a == [] && d == []
    ensures whole == b + c
  {
  }

  /** `updateTrabajador`: the SET list pairs the i-th column with `$i`, the id
      comes last as `$(n+1)`, and neither the RUT nor the company is ever
      written. */
  function Update(id: Value, body: Params, u: Uploads): (st: Statement)
    ensures NumberedInOrder(st)
    ensures |st.params| >= 14 && st.params[|st.params| - 1] == id
    ensures st.params[..|st.params| - 1] == Values(Assignments(UpdateColumns, body, u))
    ensures st.text == UpdateText(Names(Assignments(UpdateColumns, body, u)))
  {
    var a := Assignments(UpdateColumns, body, u);
    var names := Names(a);
    ColumnNamesSafe();
    AssignmentNamesSafe(UpdateColumns, body, u);
    UpdateTextPlaceholders(names);
    var params := Values(a) + [id];
    assert params[..|params| - 1] == Values(a);
    Statement(UpdateText(names), params)
  }

  /** Neither the RUT nor the company is among the columns an update writes. */
  lemma UpdateNeverWritesKeys(body: Params, u: Uploads)
    ensures forall i :: 0 <= i < |Assignments(UpdateColumns, body, u)| ==>
      Assignments(UpdateColumns, body, u)[i].name != "rut"
      && Assignments(UpdateColumns, body, u)[i].name != "empresa_id"
  {
    var a := Assignments(UpdateColumns, body, u);
    UpdateColumnsAreInsertColumnsWithoutKeys();
    forall i | 0 <= i < |a|
      ensures a[i].name != "rut" && a[i].name != "empresa_id"
    {
      if i < |UpdateColumns| {
        assert a[i] == a[..|UpdateColumns|][i];
      } else {
        var f := FileAssignments(u);
        assert a[i] == f[i - |UpdateColumns|];
        assert a[i].name in {"cv", "certificado_antecedentes", "certificado_afp", "formulario_fun"};
      }
    }
  }

  /** Create and update write each shared column from the same body value,
      coerced the same way. */
  lemma CreateAndUpdateAgree(body: Params, u: Uploads, i: nat)
    requires 0 <= i < |UpdateColumns|
    ensures Assignments(UpdateColumns, body, u)[i] == Assignments(InsertColumns, body, u)[i + 1]
  {
    var a := Assignments(UpdateColumns, body, u);
    var b := Assignments(InsertColumns, body, u);
    UpdateColumnsAreInsertColumnsWithoutKeys();
    assert a[i] == a[..|UpdateColumns|][i];
    assert b[i + 1] == b[..|InsertColumns|][i + 1];
  }
}
